=== FILE: README.md ===
# Provider layer of the SiYuan AI title assistant, in Dafny

This project models the provider layer of the SiYuan "AI title assistant" plugin
(kezi000/siyuan-biaoti). It also models the pure helpers of the plugin class, and it
proves properties of both. I/O is removed throughout: `fetch` is a function parameter
from request to response or rejection, and the timers and the abort signal are oracles.

The model covers:

- **Retry** (`RetryHandler`). `execute` is a recursive function over the attempt
  budget. It takes three oracles, each indexed by attempt number:
  - the operation's outcome;
  - whether the signal is aborted when that attempt fails;
  - whether it fires during the backoff wait after that attempt.

  A run produces a `Trace`: the attempt numbers invoked, the waits begun, and the value
  or fault. An independent predicate, `Explains`, describes the runs the source allows.
  `Execute` is proved to be the only trace that `Explains` admits.
- **Errors, metadata and credentials** (`LLMProvider`, `ProviderConfig`, `Types`):
  - the `LLMProviderError` constructor and the `ensureApiKey` guard;
  - the six-entry metadata table and the default credentials;
  - the `{...defaults, ...overrides}` merge.
- **Factory** (`ProviderFactory`): the memoized registry is a value holding a map and a
  log of `create` calls. `get` returns the stored instance, or creates one the first
  time.
- **Five adapters** (`OpenAIProvider`, `AnthropicProvider`, `GeminiProvider`,
  `DeepSeekProvider`, `ZhipuProvider`). Each has two halves:
  - a request builder: URL, header map and JSON body;
  - a response interpreter, from a response to a title or a fault.

  `GenerateTitle` and `TestConnection` tie the two halves together over the transport.
  The shared pieces are in `ProviderHttp`: status classification, the error from a
  failed response, `getConfig`, header merging and the chat body.
- **Plugin helpers** (`Plugin`): context normalisation and selection, prompt
  templating, the number-input clamp, base-URL sanitising, the request headers, and the
  busy-flag guard of `handleGenerateTitle`.

Two supporting modules model JavaScript itself:

- `JsValue` covers parsed JSON, optional chaining, `??`, `||`, truthiness, `typeof`
  tests and `String(v)`.
- `Text` covers the `\s`/`trim()` whitespace class, `trim`, `replace(/\s+/g, " ")`,
  `replace(/\/+$/, "")`, `split` and `join`.

Conventions:

- `JSON.stringify`, number-to-string conversion and `encodeURIComponent` are
  uninterpreted functions, passed in as a `Runtime` record.
- A non-string truthy value reaching `.trim()` or `.split()` is a `TypeError` fault,
  as it is in JavaScript.

## Model

| member | source | states |
|---|---|---|
| LLMProvider.NewProviderError | src/providers/base/LLMProvider.ts:20-26 | The error is named "LLMProviderError". It keeps the message, status and provider id exactly as given, and is retryable only when `retryable: true` was passed, so it defaults to false. |
| LLMProvider.EnsureApiKey | src/providers/base/LLMProvider.ts:29-33 | Passes iff the API key is non-empty. Otherwise the error reads "Missing API key for provider <id>", carries the id, has no status and is not retryable. |
| ProviderConfig.Metadata | src/providers/base/ProviderConfig.ts:3-58 | One entry per provider, keyed by its own id. Every entry requires an API key, allows a custom base URL, and has a non-empty default URL and model. |
| ProviderConfig.CustomSharesOpenAIDefaults | src/providers/base/ProviderConfig.ts:3-58 | The `custom` entry has the same default base URL and model as `openai`. |
| ProviderConfig.DefaultCredential | src/providers/base/ProviderConfig.ts:60-69 | A default credential has an empty key, the provider's default base URL and model, and no other field. |
| ProviderConfig.Resolve | src/providers/base/ProviderConfig.ts:71-76 | Total. With no overrides it is exactly the default credential. A field present in the overrides wins and an absent one keeps the default, so base URL and model are always present. |
| ProviderConfig.ResolveIdempotent | src/providers/base/ProviderConfig.ts:71-76 | Resolving an already resolved credential again changes nothing. |
| ProviderConfig.ResolveDefaultIsDefault | src/providers/base/ProviderConfig.ts:71-76 | Overriding with the default credential itself yields the default. |
| ProviderFactory.KindOf | src/providers/factory/LLMProviderFactory.ts:20-32 | The adapter class follows the id exactly: OpenAI-compatible iff `openai` or `custom`, Anthropic Messages iff `anthropic`, Gemini iff `gemini`, DeepSeek iff `deepseek`, Zhipu iff `zhipu`. |
| ProviderFactory.Create | src/providers/factory/LLMProviderFactory.ts:19-36 | The adapter is built for the requested id, is of the class `KindOf` assigns that id, and shows that provider's label. Every id reaches a case, so "Unsupported provider" is unreachable. |
| ProviderFactory.EmptyIsValid | src/providers/factory/LLMProviderFactory.ts:10 | The fresh registry satisfies the registry invariant. |
| ProviderFactory.Get | src/providers/factory/LLMProviderFactory.ts:12-17 | After `get(id)` the id is stored and the stored instance is returned. A present id leaves the registry untouched, and an absent one logs exactly one `create`. Other entries are unchanged. |
| ProviderFactory.GetPreservesValid | src/providers/factory/LLMProviderFactory.ts:12-17 | `get` keeps the invariant: stored instances are `create`'s, and `create` ran once per stored id and never twice. It returns the adapter built for the id. |
| ProviderFactory.GetIdempotent | src/providers/factory/LLMProviderFactory.ts:12-17 | A second `get` of the same id returns the identical instance and leaves the registry as it was. |
| ProviderFactory.GetAllPreservesValid | src/providers/factory/LLMProviderFactory.ts:12-17 | Over any sequence of `get` calls, `create` runs at most once per id. |
| ProviderFactory.GetAllReturnsStoredInstances | src/providers/factory/LLMProviderFactory.ts:12-17 | In any sequence of `get` calls, the i-th adapter returned is the one the registry holds for the i-th id. |
| ProviderFactory.GetAllReturnsRequestedAdapters | src/providers/factory/LLMProviderFactory.ts:12-36 | From a valid registry, every adapter handed out was built for the id asked for. |
| ProviderFactory.GetAllKeepsEntries | src/providers/factory/LLMProviderFactory.ts:13-16 | Entries already in the registry survive every later `get` unchanged. |
| RetryHandler.Backoff | src/providers/base/RetryHandler.ts:42-45 | The wait never exceeds `timeoutMs` or `baseDelayMs · 2^(attempt-1)` (exponential) or `baseDelayMs` (linear), and equals one of the two. |
| RetryHandler.BackoffMonotone | src/providers/base/RetryHandler.ts:43-45 | With a non-negative base delay, waits never shrink from one attempt to a later one. |
| RetryHandler.ForeignErrorsAreRetried | src/providers/base/RetryHandler.ts:29-40 | An error that is not an `LLMProviderError` is retried exactly when the signal is not aborted and budget remains. |
| RetryHandler.Loop | src/providers/base/RetryHandler.ts:14-26 | The loop from any attempt count produces a trace satisfying the reference predicate: consecutive attempts within budget, retried failures before the last, the last ending the run, and each wait the backoff of its attempt. |
| RetryHandler.Execute | src/providers/base/RetryHandler.ts:11-27 | Attempts are numbered 1, 2, … and number at most `maxAttempts`. With no budget nothing is invoked and "Exceeded retry attempts" is thrown. The k-th wait is the backoff after attempt k, and a returned value is the last attempt's, all earlier ones having thrown. |
| RetryHandler.EndingAttemptDoesNotContinue | src/providers/base/RetryHandler.ts:17-23 | An attempt that ends the run, by returning, being rethrown or aborting its wait, is not one after which the loop goes on. |
| RetryHandler.ExplainedTraceIsUnique | src/providers/base/RetryHandler.ts:11-27 | The reference predicate determines the trace: two traces it admits are equal. |
| RetryHandler.ExecuteIsTheExplainedTrace | src/providers/base/RetryHandler.ts:11-27 | A trace satisfies the reference predicate iff it is the one `execute` produces. |
| RetryHandler.RunEndsAtFirstStop | src/providers/base/RetryHandler.ts:14-24 | The run stops at the first attempt that does not continue, and that attempt decides the result. |
| RetryHandler.FirstSuccessIsReturned | src/providers/base/RetryHandler.ts:17 | The first returning attempt's value is the result, after k-1 waits and with no later invocation. |
| RetryHandler.NonRetryableErrorIsRethrown | src/providers/base/RetryHandler.ts:20-21 | A non-retryable `LLMProviderError` is rethrown unchanged right after the attempt that raised it, with no wait after it. |
| RetryHandler.AbortedFailureIsRethrown | src/providers/base/RetryHandler.ts:30-32 | A failure while the signal is already aborted is rethrown with no wait and no further attempt. |
| RetryHandler.AbortDuringWaitFails | src/providers/base/RetryHandler.ts:51-54 | An abort during the wait after attempt k fails the run with `AbortError` instead of the original error. Attempt k+1 never starts. |
| RetryHandler.AllAttemptsFailing | src/providers/base/RetryHandler.ts:33-35 | When every attempt fails retryably and nothing aborts, exactly `maxAttempts` invocations happen. The waits are the backoffs after attempts 1..maxAttempts-1, and the last error is thrown. |
| RetryHandler.ThreeRetryableFailures | src/providers/base/RetryHandler.ts:42-45 | Base 100 ms with exponential backoff and three retryable failures: invoked 1, 2, 3; waits 100 then 200; the error is rethrown. |
| ProviderHttp.Data | src/providers/openai/OpenAIProvider.ts:40 | An unparsable body reads as `{}`, and a parsed one as itself. |
| ProviderHttp.ErrorText | src/providers/openai/OpenAIProvider.ts:42 | A non-empty string `error.message` is the error text; a falsy one gives way to `statusText`. |
| ProviderHttp.StatusError | src/providers/openai/OpenAIProvider.ts:41-47 | A failed response becomes an error carrying that text, the HTTP status, the provider id and the given retryability. |
| ProviderHttp.AdapterConfig | src/providers/openai/OpenAIProvider.ts:77-83 | `getConfig` keeps the key, organization and extra headers, and fills a missing model from the defaults. The base URL is the configured one, or the default when empty, with its trailing '/' run removed. |
| ProviderHttp.WithExtraHeaders | src/providers/openai/OpenAIProvider.ts:93-95 | Extra headers are applied last: each one appears with its own value, and every other header keeps its value. |
| ProviderHttp.BearerHeaders | src/providers/deepseek/DeepSeekProvider.ts:104-113 | The keys are exactly `Content-Type`, `Authorization` and the extra headers. `Content-Type` is "application/json" and `Authorization` is `Bearer <key>` unless an extra header overrides them, and every extra header is present with its value. |
| ProviderHttp.TrimValue | src/providers/deepseek/DeepSeekProvider.ts:52 | `content?.trim()`: absent stays absent, a string is trimmed, any other value throws a `TypeError`. |
| ProviderHttp.EmptyPayloadError | src/providers/deepseek/DeepSeekProvider.ts:55-58 | The empty-payload error embeds the serialised body, carries the provider id, no status, and is retryable. |
| ProviderHttp.Exchange | src/providers/deepseek/DeepSeekProvider.ts:9-35 | A missing key fails before any request. Otherwise exactly one request is sent, a rejected fetch passes through, and a response goes to the interpreter. |
| ProviderHttp.ModelsThenChatProbe | src/providers/deepseek/DeepSeekProvider.ts:64-94 | A missing key fails before any request. The first request is a GET of `<base>/models`. An OK answer passes, and any other non-404 answer fails with its status error. A rejection passes through. A second request, the one-token POST probe to `<base>/chat/completions`, is sent iff the first answer is a non-OK 404; its outcome is then the result. A status error is retryable iff the status is ≥ 500 or 429. |
| ProviderHttp.FinalStatus | src/providers/deepseek/DeepSeekProvider.ts:86-93 | A probe passes iff the response is OK; otherwise it fails with the status-classified error. |
| OpenAIProvider.Headers | src/providers/openai/OpenAIProvider.ts:85-97 | The keys are exactly `Content-Type`, `Authorization`, the extra headers and `OpenAI-Organization` iff a non-empty organization is set. `Content-Type` is "application/json" and authorization is `Bearer <key>`; extra headers override all of them. |
| OpenAIProvider.RequestBody | src/providers/openai/OpenAIProvider.ts:19-33 | Every entry of the chat body, plus `reasoning_effort: "low"` iff thinking is disabled, and no other key. |
| OpenAIProvider.ChunkText | src/providers/openai/OpenAIProvider.ts:106 | A chunk contributes its truthy `text` as a string, otherwise its truthy `value` as a string (a non-empty string `value` unchanged), and "" when neither is truthy. |
| OpenAIProvider.ExtractMessageContent | src/providers/openai/OpenAIProvider.ts:99-112 | The lookup order: a string `(message ?? delta).content`; else an array of it as chunks joined by " "; else the choice's string `text`; else nothing. |
| OpenAIProvider.Interpret | src/providers/openai/OpenAIProvider.ts:40-57 | A non-OK status is the status error, retryable iff ≥ 500 or 429. An OK response succeeds iff content exists and is not blank, and the title is then that content trimmed, hence non-empty. Otherwise it is the retryable empty-payload error. |
| OpenAIProvider.GenerateTitle | src/providers/openai/OpenAIProvider.ts:16-58 | A missing key fails before any request. Otherwise one POST to `<base>/chat/completions`, with the trailing '/' stripped, these headers and this body, interpreted as above. A rejected fetch fails with that rejection. |
| OpenAIProvider.TestConnection | src/providers/openai/OpenAIProvider.ts:60-75 | One GET of `<base>/models`. It passes iff the response is OK. A non-OK answer fails with the status error carrying the status and body text, never retryable. A rejected fetch fails with that rejection. |
| AnthropicProvider.Headers | src/providers/anthropic/AnthropicProvider.ts:83-93 | The keys are exactly `Content-Type`, `x-api-key`, `anthropic-version` and the extra headers. `Content-Type` is "application/json", `x-api-key` is the key and `anthropic-version` is "2023-06-01" unless overridden, and there is no `Authorization` of its own. |
| AnthropicProvider.RequestBody | src/providers/anthropic/AnthropicProvider.ts:17-29 | A top-level `system`, exactly one user message, the token budget as `max_output_tokens` (never `max_tokens`), the configured `temperature` and `top_p`, and `model` iff one is configured; no other keys. |
| AnthropicProvider.ItemText | src/providers/anthropic/AnthropicProvider.ts:98 | A block contributes its truthy `text` as `String` renders it (a string unchanged), and "" when `text` is falsy. |
| AnthropicProvider.ExtractContent | src/providers/anthropic/AnthropicProvider.ts:95-104 | An array gives its block texts joined by " ". A string is returned as is. Content is found iff it is an array or a string. |
| AnthropicProvider.Interpret | src/providers/anthropic/AnthropicProvider.ts:32-49 | A non-OK status is retryable iff ≥ 500 or 429. Success iff content exists and is not blank, giving that content trimmed. Otherwise the retryable empty-payload error. |
| AnthropicProvider.GenerateTitle | src/providers/anthropic/AnthropicProvider.ts:11-50 | A missing key fails first. Otherwise one POST to `<base>/v1/messages` with these headers and body. A rejected fetch fails with that rejection. |
| AnthropicProvider.TestConnection | src/providers/anthropic/AnthropicProvider.ts:52-73 | A missing key fails first. Otherwise exactly one POST to `<base>/v1/messages` with these headers and the one-token probe body. An OK answer passes, a non-OK one fails with the status-classified error, and a rejected fetch fails with that rejection. |
| GeminiProvider.RequestBody | src/providers/gemini/GeminiProvider.ts:16-29 | Exactly the keys `systemInstruction`, `contents` and `generationConfig`. The system prompt is `systemInstruction.parts[0].text`; `contents` is one user turn whose only part is the prompt. Temperature, topP and the token budget go under `generationConfig` as `temperature`, `topP` and `maxOutputTokens`. |
| GeminiProvider.ExtractText | src/providers/gemini/GeminiProvider.ts:70-77 | Text exists only when `candidates` is a non-empty array, and is then the string `candidates[0].content.parts[0].text`, if that is a string. |
| GeminiProvider.EmptyTextError | src/providers/gemini/GeminiProvider.ts:41-43 | The empty-response error is "Empty response payload", for Gemini, carries no status and is not retryable. |
| GeminiProvider.Interpret | src/providers/gemini/GeminiProvider.ts:32-44 | A non-OK status is retryable iff ≥ 500 or 429. Success iff the text exists and is not "" (tested before trimming), giving the trimmed text. Otherwise the non-retryable empty error. |
| GeminiProvider.WhitespaceOnlyTextIsReturnedEmpty | src/providers/gemini/GeminiProvider.ts:41-44 | Whitespace-only text passes the emptiness test and is returned as "". |
| GeminiProvider.GenerateTitle | src/providers/gemini/GeminiProvider.ts:9-45 | A missing key fails first. Otherwise one POST to `<base>/models/<model>:generateContent?key=<encoded key>` with only a `Content-Type` header. A rejected fetch fails with that rejection. |
| GeminiProvider.TestConnection | src/providers/gemini/GeminiProvider.ts:47-60 | One GET of `<base>/models?key=<encoded key>`. It passes iff OK. A non-OK answer fails with the status error carrying the status and `error.message` or status text, never retryable, and a rejected fetch fails with that rejection. |
| DeepSeekProvider.ExtractContent | src/providers/deepseek/DeepSeekProvider.ts:38-50 | No candidate unless `choices` is a non-empty array. Any candidate found is truthy. |
| DeepSeekProvider.ExtractContentIsFirstTruthy | src/providers/deepseek/DeepSeekProvider.ts:40-50 | The candidate is the first truthy of `message.content`, `text`, `delta.content`, in that order. |
| DeepSeekProvider.Interpret | src/providers/deepseek/DeepSeekProvider.ts:28-61 | A non-OK status is retryable iff ≥ 500 or 429. Success iff the candidate is a non-blank string, giving it trimmed. A non-string candidate throws `TypeError`, and anything else is the retryable empty-payload error. |
| DeepSeekProvider.GenerateTitle | src/providers/deepseek/DeepSeekProvider.ts:9-62 | A missing key fails first. Otherwise one POST to `<base>/chat/completions` with Bearer headers and the chat body. A rejected fetch fails with that rejection. |
| DeepSeekProvider.TestConnection | src/providers/deepseek/DeepSeekProvider.ts:64-94 | A GET of `<base>/models` first: OK passes, any other non-404 status fails with its status error, a rejection passes through. A non-OK 404 sends the one-token POST probe to `<base>/chat/completions`, whose outcome is the result. A status error is retryable iff ≥ 500 or 429. |
| ZhipuProvider.KeepNonBlank | src/providers/zhipu/ZhipuProvider.ts:56 | The kept lines are lines of the input whose trim is non-empty. None is kept iff every line is blank. |
| ZhipuProvider.KeepNonBlankOne | src/providers/zhipu/ZhipuProvider.ts:56 | One line is kept iff its trim is non-empty. |
| ZhipuProvider.KeepNonBlankAppend | src/providers/zhipu/ZhipuProvider.ts:56 | The filter works line by line: what `a + b` keeps is what `a` keeps followed by what `b` keeps, so every non-blank line survives, in order. |
| ZhipuProvider.LastNonBlank | src/providers/zhipu/ZhipuProvider.ts:56-59 | The position of a non-blank line after which every line is blank, or nothing when all lines are blank. |
| ZhipuProvider.KeepNonBlankLast | src/providers/zhipu/ZhipuProvider.ts:56-59 | The last line the filter keeps is the last non-blank line. |
| ZhipuProvider.MarkerRun | src/providers/zhipu/ZhipuProvider.ts:61 | The leading run of `#`, `*`, `-`, `.` and digits is maximal. |
| ZhipuProvider.StripListMarker | src/providers/zhipu/ZhipuProvider.ts:61 | The result is a suffix. Input not starting with a marker is unchanged. Otherwise the whole marker run and the whitespace after it are removed, and the result does not start with whitespace. |
| ZhipuProvider.ReasoningTitle | src/providers/zhipu/ZhipuProvider.ts:56-62 | Nothing iff the reasoning is blank. Otherwise it is the last line whose trim is non-empty, trimmed, stripped of its list marker and trimmed again: one line, with no surrounding whitespace. |
| ZhipuProvider.ExtractContent | src/providers/zhipu/ZhipuProvider.ts:41-72 | The lookup order: a truthy `message.content`; else the title recovered from a truthy string `reasoning_content` (a non-string one throws `TypeError`); else the first truthy of `text` and `delta.content`. |
| ZhipuProvider.TruncationError | src/providers/zhipu/ZhipuProvider.ts:82-88 | The truncation error carries the max_tokens advice, the provider id, no status, and is not retryable. |
| ZhipuProvider.Conclude | src/providers/zhipu/ZhipuProvider.ts:75-97 | Success iff the candidate is a non-blank string, giving it trimmed. Otherwise truncation is reported iff the choice finished for "length" with reasoning present, else the retryable empty-payload error. |
| ZhipuProvider.Interpret | src/providers/zhipu/ZhipuProvider.ts:28-97 | A non-OK status is retryable iff ≥ 500 or 429. On OK: success iff the extracted candidate is a non-blank string; the truncation and empty-payload errors otherwise, or a `TypeError`. |
| ZhipuProvider.ReasoningIsTheCandidate | src/providers/zhipu/ZhipuProvider.ts:50-63 | With a falsy `content`, a string `reasoning_content` supplies the candidate through the last-line rule, for any non-empty `choices` array whose first element is that choice. |
| ZhipuProvider.TrimmedCandidateIsReturned | src/providers/zhipu/ZhipuProvider.ts:75-97 | A candidate that is already a non-empty trimmed string is returned as it is. |
| ZhipuProvider.ReasoningTitleIsReturned | src/providers/zhipu/ZhipuProvider.ts:50-97 | With a falsy `content`, a non-empty line recovered from the reasoning is the returned title, for any non-empty `choices` array whose first element is that choice. |
| ZhipuProvider.ReasoningTitleWinsOverTruncation | src/providers/zhipu/ZhipuProvider.ts:79-97 | A non-empty recovered line is returned even when the choice finished for "length", for any non-empty `choices` array whose first element is that choice. |
| ZhipuProvider.BlankReasoningAtLengthIsTruncation | src/providers/zhipu/ZhipuProvider.ts:79-89 | Blank reasoning in a choice that finished for "length" is the non-retryable truncation error, for any non-empty `choices` array whose first element is that choice. |
| ZhipuProvider.GenerateTitle | src/providers/zhipu/ZhipuProvider.ts:9-98 | A missing key fails first. Otherwise one POST to `<base>/chat/completions` with Bearer headers and the chat body. A rejected fetch fails with that rejection. |
| ZhipuProvider.TestConnection | src/providers/zhipu/ZhipuProvider.ts:100-130 | A GET of `<base>/models` first: OK passes, any other non-404 status fails with its status error, a rejection passes through. A non-OK 404 sends the one-token POST probe to `<base>/chat/completions`, whose outcome is the result. A status error is retryable iff ≥ 500 or 429. |
| Text.Trim | src/providers/openai/OpenAIProvider.ts:49 | `trim()` never lengthens. It is empty iff the input is blank, and it leaves no whitespace at either end. |
| Text.TrimIsBothEnds | src/providers/openai/OpenAIProvider.ts:49 | `trim()` is `trimStart()` followed by `trimEnd()`. |
| Text.TrimStart | src/providers/openai/OpenAIProvider.ts:49 | The suffix left after a blank prefix, starting with a non-whitespace character. |
| Text.TrimEnd | src/providers/openai/OpenAIProvider.ts:49 | The prefix left before a blank suffix, ending with a non-whitespace character. |
| Text.TrimmedIsFixpoint | src/providers/openai/OpenAIProvider.ts:49 | A string with no whitespace at either end is its own trim. |
| Text.TrimIdempotent | src/providers/openai/OpenAIProvider.ts:49 | Trimming twice is trimming once. |
| Text.CollapseWhitespace | src/index.ts:478 | `replace(/\s+/g, " ")` is empty iff its input is, never lengthens, and starts with whitespace iff the input does. |
| Text.CollapseKeepsText | src/index.ts:478 | Collapsing keeps the non-whitespace characters, in order. |
| Text.CollapseIsSingleSpaced | src/index.ts:478 | After collapsing, the only whitespace is single spaces, never two adjacent. |
| Text.CollapseOfBlank | src/index.ts:478 | A non-empty whitespace run becomes exactly " ". |
| Text.CollapseOfWordChar | src/index.ts:478 | A non-whitespace character stays as it is. |
| Text.CollapseAppend | src/index.ts:478 | Collapsing works piece by piece when the cut does not split a whitespace run. With the two lemmas above this fixes the result for every input. |
| Text.WordsStaySeparated | src/index.ts:478 | A whitespace run between two words becomes exactly one space, so words are never glued together. |
| Text.CollapseKeepsLastWordChar | src/index.ts:478 | Input ending in a non-whitespace character collapses to text ending in that character. |
| Text.StripTrailingSlashes | src/index.ts:379 | `replace(/\/+$/, "")` removes a run of '/' from the end and leaves no '/' at the end. |
| Text.Split | src/providers/zhipu/ZhipuProvider.ts:56 | `split("\n")` gives at least one piece, none containing the separator, and joining the pieces with it restores the input. |
| Text.BlankJoin | src/providers/zhipu/ZhipuProvider.ts:56 | Joining with a blank separator is blank iff every part is. |
| JsValue.Get | src/providers/openai/OpenAIProvider.ts:100-101 | `v?.[key]` yields a value iff `v` is an object holding `key`, and then that field. |
| JsValue.First | src/providers/openai/OpenAIProvider.ts:100 | `v?.[0]` is the first element of a non-empty array, and undefined for an empty array, `null` or `undefined`. |
| JsValue.FirstTruthy | src/providers/deepseek/DeepSeekProvider.ts:43-49 | The first truthy candidate of an if/else-if chain, found iff some candidate is truthy, with every earlier one falsy. |
| Plugin.ToneInstruction | src/index.ts:53-58 | Exactly the four tone presets have an instruction, and none is empty. |
| Plugin.NormalizedEmptyIffBlank | src/index.ts:478-481 | Collapsed and trimmed text is empty iff the input is blank. |
| Plugin.NormalizedKeepsText | src/index.ts:478 | Collapsing and trimming keeps every non-whitespace character, in order. |
| Plugin.NormalizedIsSingleSpaced | src/index.ts:478 | Collapsed and trimmed text is single-spaced and no longer than the input. |
| Plugin.NormalizeContext | src/index.ts:477-484 | Empty iff the input is blank, never starting with whitespace, a prefix of the collapsed, trimmed text, and exactly `max(200, contextMaxChars)` long when that text is longer. |
| Plugin.NormalizeContextIsPrefix | src/index.ts:482-483 | The context is a prefix of the collapsed, trimmed text: all of it when that fits the limit, and exactly `max(200, contextMaxChars)` characters of it otherwise. |
| Plugin.NormalizeContextKeepsText | src/index.ts:477-484 | The context is single-spaced and its text is a prefix of the input's. When the input fits the limit no character is lost. |
| Plugin.NormalizeContextSeparatesWords | src/index.ts:477-484 | For trimmed non-empty `a` and `b` with whitespace between them, the result is the normalised `a`, one space and the normalised `b`. This holds for the collapsed text always, and for the context when the input fits the limit. |
| Plugin.KeyAt | src/index.ts:492 | A placeholder name is recognised only where the text starts with it. |
| Plugin.KeyAtFinds | src/index.ts:492 | Text starting with a name is recognised as that name. |
| Plugin.CloseAt | src/index.ts:492 | A closing match ends at least two characters later, inside the string, for the same name. |
| Plugin.OpenAt | src/index.ts:492 | An opening match starts with '{' and ends after "{{" and the name, inside the string. |
| Plugin.PlaceholderAt | src/index.ts:492 | A match starts with '{' and is at least "{{", the name and "}}" long. |
| Plugin.Render | src/index.ts:492 | A template without '{' is returned unchanged. |
| Plugin.PlainCharIsCopied | src/index.ts:492 | A character other than '{' is copied and scanning goes on after it. |
| Plugin.RenderPlainPrefix | src/index.ts:492 | Text without '{' is copied as it is and scanning resumes after it. |
| Plugin.RenderWithoutPlaceholders | src/index.ts:492 | A template in which no position starts a placeholder match is returned unchanged, braces included. |
| Plugin.UnclosedIsNoMatch | src/index.ts:492 | "{{content}" starts no match: the pattern needs both closing braces. |
| Text.WhitespaceRunOfBlank | src/index.ts:492 | The `\s*` run over blank text followed by a non-space is exactly that text. |
| Plugin.ClosingIsMatched | src/index.ts:492 | Whitespace and "}}" after a name close the match right after the braces. |
| Plugin.OpeningIsMatched | src/index.ts:492 | "{{", a whitespace run and a name open a match that ends after the name. |
| Plugin.OpenThenClose | src/index.ts:492 | An opening followed by its closing is a whole match. |
| Plugin.OpeningOfLayout | src/index.ts:492 | Braces, blank space and a name open a match ending after the name. |
| Plugin.LayoutIsMatched | src/index.ts:492 | Braces, blank space, a name, blank space and "}}" form exactly one match. |
| Plugin.TokenIsMatched | src/index.ts:492 | Every `{{ name }}` token, whatever whitespace surrounds the name, is recognised whole. |
| Plugin.PlaceholderIsReplaced | src/index.ts:492 | A placeholder is replaced by its value and scanning resumes after it, so the value itself is never scanned. |
| Plugin.ValuesAreNotRescanned | src/index.ts:492 | A content value that looks like a placeholder is inserted literally. |
| Plugin.LanguageText | src/index.ts:489 | A non-empty configured language is used, and the result is never empty. |
| Plugin.ToneText | src/index.ts:490 | A known tone gives its instruction, and any other name the balanced one. |
| Plugin.RenderPrompt | src/index.ts:486-493 | A template containing no '{' is the prompt unchanged. |
| Plugin.PromptFillsPlaceholder | src/index.ts:486-493 | After brace-free text, a `content` placeholder gets the context, `language` gets the configured language, or "Chinese (Simplified)" when that is empty, and `tone` gets the tone's instruction, or the balanced one for an unknown tone. Brace-free text before it is kept and the rest is rendered with the same values. |
| Plugin.Clamp | src/index.ts:329-333 | The committed value is at most `max` and at least `min` when `min ≤ max`. An in-range number is kept, an unparsable entry falls back to the value the field was created with (`options.value`), and a number or fallback above `max` (or an infinity) lands on `max`, one below `min` on `min`. When `min > max` the result is `max`. |
| Plugin.ClampIdempotent | src/index.ts:329-333 | Committing a clamped value again leaves it where it is. |
| Plugin.SanitizedBaseUrl | src/index.ts:378-380 | The configured URL minus exactly its trailing '/' run. |
| Plugin.BuildHeaders | src/index.ts:382-388 | JSON content type always. `Authorization: Bearer <key>` is present iff the key is non-empty, and there is nothing else. |
| Plugin.ContextSource | src/index.ts:458-471 | "selection" needs a non-blank trimmed selection or yields nothing. "auto" prefers a non-blank selection. Anything else uses the document text, "" when missing. |
| Plugin.ExtractContext | src/index.ts:458-471 | A context exists iff the strategy found a source text, and is that text normalised. |
| Plugin.OnlySelectionStrategyCanFail | src/index.ts:458-471 | Every strategy other than "selection" always yields a context. |
| Plugin.DocumentStrategyIgnoresSelection | src/index.ts:470 | Under "document" the selection makes no difference. |
| Plugin.HandleGenerateTitle | src/index.ts:416-447 | While busy it is a no-op. Otherwise the key, the editor and the context are checked in that order, giving `NeedApiKey`, `NoEditor` or `ContextUnavailable` with no prompt and the flag never set. A prompt is sent iff all three are present; it is the rendered template and the request runs with the busy flag set. The flag is always clear afterwards. |
| Plugin.TitleShownIffRequestSucceeds | src/index.ts:437-442 | The title is shown iff a prompt was sent and the request answered with that title; a failure is reported iff the sent request failed, with its fault. |

## Behaviour worth noting

- Gemini reports a missing or empty completion as not retryable (src/providers/gemini/GeminiProvider.ts:41-43).
- Gemini checks for emptiness before trimming, so whitespace-only text comes back as "" (`GeminiProvider.WhitespaceOnlyTextIsReturnedEmpty`).
- Zhipu reports truncated reasoning as a non-retryable error (src/providers/zhipu/ZhipuProvider.ts:79-89).
- The OpenAI and Gemini `testConnection` failures are never retryable, whatever the status (src/providers/openai/OpenAIProvider.ts:67-73, src/providers/gemini/GeminiProvider.ts:52-58).
- Adapters trim the completion but do not collapse the whitespace inside it.
- An error that is not an `LLMProviderError` is retried (src/providers/base/RetryHandler.ts:39).
- The factory's "Unsupported provider" branch throws a plain `Error`, and no identifier reaches it.
- The code has no failover between providers, so none is modelled.

## Left out

- `fetch`, `response.json()` and the network: `fetch` is the transport parameter and the parsed body is part of the response; an unparsable body is `None`, read as `{}`.
- Timers, `setTimeout` clamping and the `AbortSignal` event plumbing of the retry wait (src/providers/base/RetryHandler.ts:46-58): waits are computed integers and aborts are per-attempt oracles.
- RetryHandler.Backoff: integers stand for JavaScript numbers, so fractional or huge delays and `Math.pow` rounding are not modelled.
- RetryHandler.Execute: `maxAttempts` is an integer. A fractional budget, which acts as its ceiling because the loop tests `attempt < maxAttempts`, and a NaN budget, which runs no attempt, are not modelled.
- RetryHandler.Execute: every thrown value is an `Error`; a thrown non-`Error` value, which the source replaces by "Exceeded retry attempts" at the end, is not modelled.
- `JSON.stringify`, number-to-string conversion and `encodeURIComponent` are uninterpreted functions, so messages that embed a body are stated in terms of them.
- `console.log`/`console.error` calls have no effect on results and are left out.
- Temperature, topP and maxTokens are opaque numbers that are only passed through.
- Lengths count characters, not UTF-16 code units, so `slice` on text outside the Basic Multilingual Plane is not modelled exactly.
- Plugin.NormalizeContext: `contextMaxChars` is an integer; a fractional or NaN setting is not modelled.
- Plugin.ToneText: a tone name that is a property of `Object.prototype` is treated as unknown.
- Plugin.Clamp: `Number(...)` parsing is abstracted to finite, NaN or infinite; which strings parse to what (including `Number("")` being 0) is not modelled.
- ProviderConfig.Resolve: an override field explicitly set to `undefined`, which the spread copies, is treated as absent.
- ProviderHttp.TrimValue: the message of the `TypeError` the engine throws for `trim` on a non-string is not modelled, only its name.
- ZhipuProvider.ExtractContent: the message of the `TypeError` the engine throws for `split` on a non-string is not modelled, only its name.
- `requestTitle` (src/index.ts:495-528) is the `request` parameter of `Plugin.HandleGenerateTitle`: it calls one endpoint directly and uses neither the factory nor the retry handler.
- No failover between providers: the code never uses `ProviderPreferences` or `UsageStats`, so none is modelled.
- Everything DOM- or SiYuan-specific: the setting panel, dialogs, clipboard, document rename, icons, `loadData`/`saveData` persistence and the debounced save timer.
- The messages `showMessage` displays in `handleGenerateTitle` and `extractContext` are reduced to the outcome they report.

=== FILE: anthropic_provider.dfy ===
/** `AnthropicProvider`: the adapter for the Anthropic Messages API. */
module AnthropicProvider {
  import opened Wrappers
  import opened Text
  import opened JsValue
  import opened Types
  import opened LLMProvider
  import opened ProviderHttp

  /** The API version every request announces. */
  const AnthropicVersion: string := "2023-06-01"

  /** `buildHeaders`: JSON content type, the key in `x-api-key`, the API version, extras applied last. */
  function Headers(c: ProviderCredential): (h: map<string, string>)
    ensures h.Keys == {"Content-Type", "x-api-key", "anthropic-version"} + ExtraKeys(c)
    ensures c.extraHeaders.None? || "Content-Type" !in c.extraHeaders.value ==>
              "Content-Type" in h && h["Content-Type"] == "application/json"
    ensures c.extraHeaders.None? || "x-api-key" !in c.extraHeaders.value ==>
              "x-api-key" in h && h["x-api-key"] == c.apiKey
    ensures c.extraHeaders.None? || "anthropic-version" !in c.extraHeaders.value ==>
              "anthropic-version" in h && h["anthropic-version"] == AnthropicVersion
    ensures "Authorization" in h ==> c.extraHeaders.Some? && "Authorization" in c.extraHeaders.value
    ensures c.extraHeaders.Some? ==> forall k :: k in c.extraHeaders.value ==> k in h && h[k] == c.extraHeaders.value[k]
  {
    WithExtraHeaders(map["Content-Type" := "application/json",
                         "x-api-key" := c.apiKey,
                         "anthropic-version" := AnthropicVersion], c.extraHeaders)
  }

  /**
    The Messages body: a top-level `system`, exactly one user message, sampling
    parameters verbatim and the token budget as `max_output_tokens`.
  */
  function RequestBody(c: ProviderCredential, p: GenerateTitleParams): (body: map<string, Json>)
    ensures "system" in body && body["system"] == JStr(p.systemPrompt)
    ensures "messages" in body && body["messages"] == JArr([Message("user", p.prompt)])
    ensures "temperature" in body && body["temperature"] == JNum(p.temperature)
    ensures "top_p" in body && body["top_p"] == JNum(p.topP)
    ensures "max_output_tokens" in body && body["max_output_tokens"] == JNum(p.maxTokens)
    ensures body.Keys == {"system", "messages", "temperature", "top_p", "max_output_tokens"} +
                         (if c.model.Some? then {"model"} else {})
    ensures c.model.Some? ==> body["model"] == JStr(c.model.value)
    ensures "max_tokens" !in body
    ensures "model" in body <==> c.model.Some?
  {
    var base := map[
      "system" := JStr(p.systemPrompt),
      "messages" := JArr([Message("user", p.prompt)]),
      "temperature" := JNum(p.temperature),
      "top_p" := JNum(p.topP),
      "max_output_tokens" := JNum(p.maxTokens)];
    if c.model.Some? then base["model" := JStr(c.model.value)] else base
  }

  /** One content block: `item?.text || ""`, as `join` renders it. */
  function ItemText(rt: Runtime, item: Json): (text: string)
    ensures var t := Get(Some(item), "text");
            && (Truthy(t) ==> text == ToJsString(rt, t.value))
            && (t.Some? && t.value.JStr? ==> text == t.value.s)
            && (!Truthy(t) ==> text == "")
  {
    var t := Get(Some(item), "text");
    if Truthy(t) then ToJsString(rt, t.value) else ""
  }

  /**
    `extractContent`: an array `content` gives its blocks' texts joined by " " (a block
    without text contributing ""); a string `content` is returned as is; anything else
    gives nothing.
  */
  function ExtractContent(rt: Runtime, body: Json): (r: Option<string>)
    ensures var content := Get(Some(body), "content");
            && (content.Some? && content.value.JArr? ==>
                  r == Some(Join(seq(|content.value.items|, i requires 0 <= i < |content.value.items| =>
                                       ItemText(rt, content.value.items[i])), " ")))
            && (content.Some? && content.value.JStr? ==> r == Some(content.value.s))
            && (r.Some? <==> content.Some? && (content.value.JArr? || content.value.JStr?))
  {
    match Get(Some(body), "content")
    case Some(JArr(items)) => Some(Join(seq(|items|, i requires 0 <= i < |items| => ItemText(rt, items[i])), " "))
    case Some(JStr(s)) => Some(s)
    case _ => None
  }

  /**
    The response half of `generateTitle`: a non-OK status is an error carrying the
    status, retryable exactly for 5xx and 429; an OK response yields the trimmed,
    non-empty content, and missing or blank content is a retryable error embedding the body.
  */
  function Interpret(rt: Runtime, resp: Response): (r: Result<string, Fault>)
    ensures !resp.ok ==> r == Err(ProviderFault(StatusError(rt, Anthropic, resp, IsRetryableStatus(resp.status))))
    ensures resp.ok ==> (r.Ok? <==> var t := ExtractContent(rt, Data(resp)); t.Some? && !IsBlank(t.value))
    ensures r.Ok? ==> && r.value != [] && IsTrimmed(r.value)
                      && r.value == Trim(ExtractContent(rt, Data(resp)).value)
    ensures resp.ok && r.Err? ==> r.error == ProviderFault(EmptyPayloadError(rt, Anthropic, Data(resp)))
  {
    var data := Data(resp);
    if !resp.ok then Err(ProviderFault(StatusError(rt, Anthropic, resp, IsRetryableStatus(resp.status))))
    else
      match ExtractContent(rt, data)
      case Some(content) =>
        var trimmed := Trim(content);
        if trimmed == "" then Err(ProviderFault(EmptyPayloadError(rt, Anthropic, data)))
        else
          Ok(trimmed)
      case None => Err(ProviderFault(EmptyPayloadError(rt, Anthropic, data)))
  }

  /** `generateTitle`: a missing key fails before any request; otherwise one POST to `<base>/v1/messages`. */
  function GenerateTitle(rt: Runtime, cred: ProviderCredential, p: GenerateTitleParams, fetch: Transport): (call: Call<string>)
    ensures cred.apiKey == "" ==> call == Call([], Err(ProviderFault(MissingKeyError(Anthropic))))
    ensures cred.apiKey != "" ==>
              && |call.requests| == 1
              && call.requests[0].verb == "POST"
              && call.requests[0].url == StripTrailingSlashes(ChosenBaseUrl(Anthropic, cred)) + "/v1/messages"
              && call.requests[0].headers == Headers(AdapterConfig(Anthropic, cred))
              && call.requests[0].body == Some(JObj(RequestBody(AdapterConfig(Anthropic, cred), p)))
    ensures cred.apiKey != "" && fetch(call.requests[0]).Ok? ==>
              call.result == Interpret(rt, fetch(call.requests[0]).value)
    ensures cred.apiKey != "" && fetch(call.requests[0]).Err? ==>
              call.result == Err(Rejected(fetch(call.requests[0]).error))
  {
    var c := AdapterConfig(Anthropic, cred);
    var request := HttpRequest("POST", BaseUrl(c) + "/v1/messages", Headers(c), Some(JObj(RequestBody(c, p))));
    Exchange(Anthropic, c, request, fetch, (resp: Response) => Interpret(rt, resp))
  }

  /**
    `testConnection`: a one-token Messages request (there is no model list); a non-OK
    status fails with the status-classified error, retryable exactly for 5xx and 429.
  */
  function TestConnection(rt: Runtime, cred: ProviderCredential, fetch: Transport): (call: Call<()>)
    ensures cred.apiKey == "" ==> call == Call([], Err(ProviderFault(MissingKeyError(Anthropic))))
    ensures cred.apiKey != "" ==>
              var c := AdapterConfig(Anthropic, cred);
              call.requests == [HttpRequest("POST", StripTrailingSlashes(ChosenBaseUrl(Anthropic, cred)) + "/v1/messages",
                                            Headers(c), Some(JObj(ProbeBody(c))))]
    ensures cred.apiKey != "" && fetch(call.requests[0]).Ok? ==>
              call.result == FinalStatus(rt, Anthropic, fetch(call.requests[0]).value)
    ensures cred.apiKey != "" && fetch(call.requests[0]).Err? ==>
              call.result == Err(Rejected(fetch(call.requests[0]).error))
  {
    var c := AdapterConfig(Anthropic, cred);
    match EnsureApiKey(c, Anthropic)
    case Err(e) => Call([], Err(ProviderFault(e)))
    case Ok(_) =>
      var request := HttpRequest("POST", BaseUrl(c) + "/v1/messages", Headers(c), Some(JObj(ProbeBody(c))));
      match fetch(request)
      case Err(f) => Call([request], Err(Rejected(f)))
      case Ok(resp) => Call([request], FinalStatus(rt, Anthropic, resp))
  }
}

=== FILE: deepseek_provider.dfy ===
/** `DeepSeekProvider`: the adapter for DeepSeek's chat-completions API. */
module DeepSeekProvider {
  import opened Wrappers
  import opened Text
  import opened JsValue
  import opened Types
  import opened LLMProvider
  import opened ProviderHttp

  /**
    The content candidate of a response: when `choices` is a non-empty array, the first
    truthy one of `message.content`, `text` and `delta.content` of its first choice.
  */
  function ExtractContent(body: Json): (r: Option<Json>)
    ensures var choices := Get(Some(body), "choices");
            !(IsArray(choices) && choices.value.items != []) ==> r == None
    ensures r.Some? ==> Truthy(r)
  {
    var choices := Get(Some(body), "choices");
    if IsArray(choices) && choices.value.items != [] then
      var choice := Some(choices.value.items[0]);
      if Truthy(Get(Get(choice, "message"), "content")) then Get(Get(choice, "message"), "content")
      else if Truthy(Get(choice, "text")) then Get(choice, "text")
      else if Truthy(Get(Get(choice, "delta"), "content")) then Get(Get(choice, "delta"), "content")
      else None
    else None
  }

  /** The chain of tests is the first-truthy choice among the three fields, in order. */
  lemma ExtractContentIsFirstTruthy(body: Json)
    requires var choices := Get(Some(body), "choices"); IsArray(choices) && choices.value.items != []
    ensures var choice := Some(Get(Some(body), "choices").value.items[0]);
            ExtractContent(body) ==
              FirstTruthy([Get(Get(choice, "message"), "content"), Get(choice, "text"), Get(Get(choice, "delta"), "content")])
  {
    var choice := Some(Get(Some(body), "choices").value.items[0]);
    var vs := [Get(Get(choice, "message"), "content"), Get(choice, "text"), Get(Get(choice, "delta"), "content")];
    assert vs[1..] == [vs[1], vs[2]];
    assert vs[1..][1..] == [vs[2]];
    assert vs[1..][1..][1..] == [];
  }

  /**
    The response half of `generateTitle`: a non-OK status is an error carrying the
    status, retryable exactly for 5xx and 429. On success a string candidate is trimmed
    and returned when non-empty; a non-string candidate makes `trim` throw a `TypeError`;
    a missing or blank candidate is a retryable error embedding the body.
  */
  function Interpret(rt: Runtime, resp: Response): (r: Result<string, Fault>)
    ensures !resp.ok ==> r == Err(ProviderFault(StatusError(rt, DeepSeek, resp, IsRetryableStatus(resp.status))))
    ensures resp.ok ==> (r.Ok? <==> var c := ExtractContent(Data(resp)); c.Some? && c.value.JStr? && !IsBlank(c.value.s))
    ensures r.Ok? ==> && r.value != [] && IsTrimmed(r.value)
                      && r.value == Trim(ExtractContent(Data(resp)).value.s)
    ensures resp.ok && r.Err? ==>
              var c := ExtractContent(Data(resp));
              if c.Some? && !c.value.JStr? then r.error.ErrorFault? && r.error.name == "TypeError"
              else r.error == ProviderFault(EmptyPayloadError(rt, DeepSeek, Data(resp)))
  {
    var data := Data(resp);
    if !resp.ok then Err(ProviderFault(StatusError(rt, DeepSeek, resp, IsRetryableStatus(resp.status))))
    else
      match TrimValue(ExtractContent(data))
      case Err(f) => Err(f)
      case Ok(trimmed) =>
        if trimmed.None? || trimmed.value == "" then Err(ProviderFault(EmptyPayloadError(rt, DeepSeek, data)))
        else
          Ok(trimmed.value)
  }

  /** `generateTitle`: a missing key fails before any request; otherwise one POST to `<base>/chat/completions`. */
  function GenerateTitle(rt: Runtime, cred: ProviderCredential, p: GenerateTitleParams, fetch: Transport): (call: Call<string>)
    ensures cred.apiKey == "" ==> call == Call([], Err(ProviderFault(MissingKeyError(DeepSeek))))
    ensures cred.apiKey != "" ==>
              && |call.requests| == 1
              && call.requests[0].verb == "POST"
              && call.requests[0].url == StripTrailingSlashes(ChosenBaseUrl(DeepSeek, cred)) + "/chat/completions"
              && call.requests[0].headers == BearerHeaders(AdapterConfig(DeepSeek, cred))
              && call.requests[0].body == Some(JObj(ChatBody(AdapterConfig(DeepSeek, cred), p)))
    ensures cred.apiKey != "" && fetch(call.requests[0]).Ok? ==>
              call.result == Interpret(rt, fetch(call.requests[0]).value)
    ensures cred.apiKey != "" && fetch(call.requests[0]).Err? ==>
              call.result == Err(Rejected(fetch(call.requests[0]).error))
  {
    var c := AdapterConfig(DeepSeek, cred);
    var request := HttpRequest("POST", BaseUrl(c) + "/chat/completions", BearerHeaders(c), Some(JObj(ChatBody(c, p))));
    Exchange(DeepSeek, c, request, fetch, (resp: Response) => Interpret(rt, resp))
  }

  /** `testConnection`: the model list, falling back to a one-token chat request when it is 404. */
  function TestConnection(rt: Runtime, cred: ProviderCredential, fetch: Transport): (call: Call<()>)
    ensures cred.apiKey == "" ==> call == Call([], Err(ProviderFault(MissingKeyError(DeepSeek))))
    ensures cred.apiKey != "" ==>
              && 1 <= |call.requests| <= 2
              && call.requests[0].verb == "GET"
              && call.requests[0].url == StripTrailingSlashes(ChosenBaseUrl(DeepSeek, cred)) + "/models"
    ensures var models := ModelsRequest(AdapterConfig(DeepSeek, cred));
            cred.apiKey != "" && fetch(models).Ok? && fetch(models).value.ok ==> call == Call([models], Ok(()))
    ensures var models := ModelsRequest(AdapterConfig(DeepSeek, cred));
            cred.apiKey != "" && fetch(models).Ok? && !IsNotFound(fetch(models).value) ==>
              call == Call([models], FinalStatus(rt, DeepSeek, fetch(models).value))
    ensures var models := ModelsRequest(AdapterConfig(DeepSeek, cred));
            cred.apiKey != "" && fetch(models).Err? ==> call == Call([models], Err(Rejected(fetch(models).error)))
    ensures var c := AdapterConfig(DeepSeek, cred);
            var models := ModelsRequest(c);
            var probe := ProbeRequest(c);
            cred.apiKey != "" && fetch(models).Ok? && IsNotFound(fetch(models).value) ==>
              && call.requests == [models, probe]
              && probe.verb == "POST"
              && probe.url == StripTrailingSlashes(ChosenBaseUrl(DeepSeek, cred)) + "/chat/completions"
              && probe.body == Some(JObj(ProbeBody(c)))
              && (fetch(probe).Ok? ==> call.result == FinalStatus(rt, DeepSeek, fetch(probe).value))
              && (fetch(probe).Err? ==> call.result == Err(Rejected(fetch(probe).error)))
    ensures |call.requests| == 2 ==>
              && fetch(call.requests[0]).Ok? && fetch(call.requests[0]).value.status == 404
              && call.requests[1].url == StripTrailingSlashes(ChosenBaseUrl(DeepSeek, cred)) + "/chat/completions"
    ensures call.result.Err? && call.result.error.ProviderFault? && call.result.error.error.status.Some? ==>
              call.result.error.error.retryable == IsRetryableStatus(call.result.error.error.status.value)
  {
    ModelsThenChatProbe(rt, DeepSeek, AdapterConfig(DeepSeek, cred), fetch)
  }
}

=== FILE: gemini_provider.dfy ===
/** `GeminiProvider`: the adapter for Google's `generateContent` API. */
module GeminiProvider {
  import opened Wrappers
  import opened Text
  import opened JsValue
  import opened Types
  import opened LLMProvider
  import opened ProviderHttp

  /** `<base>/models/<model>:generateContent?key=<encoded key>`. */
  function Endpoint(rt: Runtime, c: ProviderCredential): string {
    BaseUrl(c) + "/models/" + Interpolate(c.model) + ":generateContent?key=" + rt.encodeUriComponent(c.apiKey)
  }

  /** `{text}`. */
  function TextPart(text: string): Json {
    JObj(map["text" := JStr(text)])
  }

  /**
    The `generateContent` body: the system prompt in `systemInstruction.parts[0].text`,
    one user turn, and temperature, topP and the token budget in `generationConfig`.
  */
  function RequestBody(p: GenerateTitleParams): (body: map<string, Json>)
    ensures "systemInstruction" in body
    ensures First(Get(Some(body["systemInstruction"]), "parts")) == Some(TextPart(p.systemPrompt))
    ensures "generationConfig" in body && body["generationConfig"] ==
              JObj(map["temperature" := JNum(p.temperature), "topP" := JNum(p.topP), "maxOutputTokens" := JNum(p.maxTokens)])
    ensures "contents" in body && body["contents"] ==
              JArr([JObj(map["role" := JStr("user"), "parts" := JArr([TextPart(p.prompt)])])])
    ensures body.Keys == {"systemInstruction", "contents", "generationConfig"}
  {
    map[
      "systemInstruction" := JObj(map["parts" := JArr([TextPart(p.systemPrompt)])]),
      "contents" := JArr([JObj(map["role" := JStr("user"), "parts" := JArr([TextPart(p.prompt)])])]),
      "generationConfig" := JObj(map[
        "temperature" := JNum(p.temperature),
        "topP" := JNum(p.topP),
        "maxOutputTokens" := JNum(p.maxTokens)])]
  }

  /**
    `extractText`: `candidates[0].content.parts[0].text`, only when `candidates` is a
    non-empty array and that value is a string.
  */
  function ExtractText(body: Json): (r: Option<string>)
    ensures r.Some? ==> var cs := Get(Some(body), "candidates"); IsArray(cs) && cs.value.items != []
    ensures var cs := Get(Some(body), "candidates");
            IsArray(cs) && cs.value.items != [] ==>
              r == AsString(Get(First(Get(Get(Some(cs.value.items[0]), "content"), "parts")), "text"))
  {
    var candidates := Get(Some(body), "candidates");
    if !IsArray(candidates) || candidates.value.items == [] then None
    else AsString(Get(First(Get(Get(Some(candidates.value.items[0]), "content"), "parts")), "text"))
  }

  /** The non-retryable error for a missing or empty text; it does not embed the body. */
  function EmptyTextError(): (e: ProviderError)
    ensures e.message == "Empty response payload" && !e.retryable && e.providerId == Some(Gemini)
    ensures e.status == None
  {
    NewProviderError("Empty response payload", ErrorOptions(None, Some(Gemini), Some(false)))
  }

  /**
    The response half of `generateTitle`: a non-OK status is an error carrying the
    status, retryable exactly for 5xx and 429; a missing or "" text is a NON-retryable
    error; any other text is returned trimmed. Emptiness is tested before trimming, so
    whitespace-only text comes back as "".
  */
  function Interpret(rt: Runtime, resp: Response): (r: Result<string, Fault>)
    ensures !resp.ok ==> r == Err(ProviderFault(StatusError(rt, Gemini, resp, IsRetryableStatus(resp.status))))
    ensures resp.ok ==> (r.Ok? <==> var t := ExtractText(Data(resp)); t.Some? && t.value != "")
    ensures r.Ok? ==> r.value == Trim(ExtractText(Data(resp)).value) && IsTrimmed(r.value)
    ensures resp.ok && r.Err? ==> r.error == ProviderFault(EmptyTextError())
  {
    if !resp.ok then Err(ProviderFault(StatusError(rt, Gemini, resp, IsRetryableStatus(resp.status))))
    else
      match ExtractText(Data(resp))
      case Some(content) =>
        if content == "" then Err(ProviderFault(EmptyTextError()))
        else
          Ok(Trim(content))
      case None => Err(ProviderFault(EmptyTextError()))
  }

  /** Whitespace-only text passes the emptiness test and is returned as "". */
  lemma WhitespaceOnlyTextIsReturnedEmpty(rt: Runtime, resp: Response, text: string)
    requires resp.ok && text != [] && IsBlank(text)
    requires Data(resp) == JObj(map["candidates" := JArr([
               JObj(map["content" := JObj(map["parts" := JArr([TextPart(text)])])])])])
    ensures Interpret(rt, resp) == Ok("")
  {
    var part := TextPart(text);
    var candidate := JObj(map["content" := JObj(map["parts" := JArr([part])])]);
    var candidates := Get(Some(Data(resp)), "candidates");
    assert candidates == Some(JArr([candidate]));
    var content := Get(Some(candidate), "content");
    assert content == Some(JObj(map["parts" := JArr([part])]));
    var parts := Get(content, "parts");
    assert parts == Some(JArr([part]));
    assert First(parts) == Some(part);
    assert Get(Some(part), "text") == Some(JStr(text));
    assert ExtractText(Data(resp)) == Some(text);
  }

  /**
    `generateTitle`: a missing key fails before any request; otherwise one POST to the
    `generateContent` endpoint carrying only a `Content-Type` header.
  */
  function GenerateTitle(rt: Runtime, cred: ProviderCredential, p: GenerateTitleParams, fetch: Transport): (call: Call<string>)
    ensures cred.apiKey == "" ==> call == Call([], Err(ProviderFault(MissingKeyError(Gemini))))
    ensures cred.apiKey != "" ==>
              && |call.requests| == 1
              && call.requests[0].verb == "POST"
              && call.requests[0].url == Endpoint(rt, AdapterConfig(Gemini, cred))
              && call.requests[0].headers == map["Content-Type" := "application/json"]
              && call.requests[0].body == Some(JObj(RequestBody(p)))
    ensures cred.apiKey != "" && fetch(call.requests[0]).Ok? ==>
              call.result == Interpret(rt, fetch(call.requests[0]).value)
    ensures cred.apiKey != "" && fetch(call.requests[0]).Err? ==>
              call.result == Err(Rejected(fetch(call.requests[0]).error))
  {
    var c := AdapterConfig(Gemini, cred);
    var request := HttpRequest("POST", Endpoint(rt, c), map["Content-Type" := "application/json"], Some(JObj(RequestBody(p))));
    Exchange(Gemini, c, request, fetch, (resp: Response) => Interpret(rt, resp))
  }

  /** `testConnection`: a GET of `<base>/models?key=<encoded key>`; failures are never retryable. */
  function TestConnection(rt: Runtime, cred: ProviderCredential, fetch: Transport): (call: Call<()>)
    ensures cred.apiKey == "" ==> call == Call([], Err(ProviderFault(MissingKeyError(Gemini))))
    ensures cred.apiKey != "" ==>
              var c := AdapterConfig(Gemini, cred);
              call.requests == [HttpRequest("GET", BaseUrl(c) + "/models?key=" + rt.encodeUriComponent(c.apiKey), map[], None)]
    ensures call.result.Err? && call.result.error.ProviderFault? ==> !call.result.error.error.retryable
    ensures cred.apiKey != "" && fetch(call.requests[0]).Ok? ==>
              (call.result.Ok? <==> fetch(call.requests[0]).value.ok)
    ensures cred.apiKey != "" && fetch(call.requests[0]).Ok? && !fetch(call.requests[0]).value.ok ==>
              call.result == Err(ProviderFault(StatusError(rt, Gemini, fetch(call.requests[0]).value, false)))
    ensures cred.apiKey != "" && fetch(call.requests[0]).Err? ==>
              call.result == Err(Rejected(fetch(call.requests[0]).error))
  {
    var c := AdapterConfig(Gemini, cred);
    match EnsureApiKey(c, Gemini)
    case Err(e) => Call([], Err(ProviderFault(e)))
    case Ok(_) =>
      var request := HttpRequest("GET", BaseUrl(c) + "/models?key=" + rt.encodeUriComponent(c.apiKey), map[], None);
      match fetch(request)
      case Err(f) => Call([request], Err(Rejected(f)))
      case Ok(resp) =>
        if resp.ok then Call([request], Ok(()))
        else Call([request], Err(ProviderFault(StatusError(rt, Gemini, resp, false))))
  }
}

=== FILE: js_value.dfy ===
/**
  Parsed JSON bodies and the few JavaScript operations the providers apply to them:
  optional chaining (`v?.key`, `v?.[0]`), nullish coalescing, truthiness, `typeof`
  tests and `String(v)`. A JavaScript value that may be `undefined` is an
  `Option<Json>`, with `None` standing for `undefined`.
*/
module JsValue {
  import opened Wrappers
  import Text

  /** A value produced by `JSON.parse`. Objects are keyed maps; key order is not modelled. */
  datatype Json =
    | JNull
    | JBool(b: bool)
    | JNum(n: real)
    | JStr(s: string)
    | JArr(items: seq<Json>)
    | JObj(fields: map<string, Json>)

  /**
    Host conversions that this model does not define and takes as given functions:
    `JSON.stringify`, number-to-string conversion and `encodeURIComponent`.
  */
  datatype Runtime = Runtime(
    stringify: Json -> string,
    numberToString: real -> string,
    encodeUriComponent: string -> string)

  /** The empty object `{}`, which `response.json().catch(() => ({}))` yields for an unparsable body. */
  const EmptyObject: Json := JObj(map[])

  /** `v?.[key]`: only an object holding `key` yields a value; `null`, `undefined` and primitives yield `undefined`. */
  function Get(v: Option<Json>, key: string): (r: Option<Json>)
    ensures r.Some? <==> v.Some? && v.value.JObj? && key in v.value.fields
    ensures r.Some? ==> r.value == v.value.fields[key]
  {
    match v
    case Some(JObj(fields)) => if key in fields then Some(fields[key]) else None
    case _ => None
  }

  /**
    `v?.[0]`: the first element of a non-empty array, the property "0" of an object,
    the first character of a non-empty string, and `undefined` otherwise.
  */
  function First(v: Option<Json>): (r: Option<Json>)
    ensures v.Some? && v.value.JArr? && v.value.items != [] ==> r == Some(v.value.items[0])
    ensures v.Some? && v.value.JArr? && v.value.items == [] ==> r == None
    ensures v == None || v == Some(JNull) ==> r == None
  {
    match v
    case Some(JArr(items)) => if items != [] then Some(items[0]) else None
    case Some(JObj(fields)) => if "0" in fields then Some(fields["0"]) else None
    case Some(JStr(s)) => if s != [] then Some(JStr([s[0]])) else None
    case _ => None
  }

  /** `v == null`: `undefined` or `null`. */
  predicate Nullish(v: Option<Json>) {
    v == None || v == Some(JNull)
  }

  /** `a ?? b`. */
  function Coalesce(a: Option<Json>, b: Option<Json>): Option<Json> {
    if Nullish(a) then b else a
  }

  /** JavaScript truthiness: `undefined`, `null`, `false`, `0` and `""` are falsy. */
  predicate Truthy(v: Option<Json>) {
    match v
    case None => false
    case Some(JNull) => false
    case Some(JBool(b)) => b
    case Some(JNum(n)) => n != 0.0
    case Some(JStr(s)) => s != []
    case Some(JArr(_)) => true
    case Some(JObj(_)) => true
  }

  /** `a || b`. */
  function Or(a: Option<Json>, b: Option<Json>): (r: Option<Json>)
    ensures Truthy(r) <==> Truthy(a) || Truthy(b)
  {
    if Truthy(a) then a else b
  }

  /**
    The first truthy value of an `if (a) … else if (b) …` chain, or nothing when
    every candidate is falsy.
  */
  function FirstTruthy(vs: seq<Option<Json>>): (r: Option<Json>)
    ensures r.Some? <==> exists i :: 0 <= i < |vs| && Truthy(vs[i])
    ensures r.Some? ==> Truthy(r) && exists i :: 0 <= i < |vs| && vs[i] == r && forall j :: 0 <= j < i ==> !Truthy(vs[j])
  {
    if vs == [] then None
    else if Truthy(vs[0]) then vs[0]
    else
      var rest := FirstTruthy(vs[1..]);
      assert forall i :: 1 <= i < |vs| ==> vs[i] == vs[1..][i - 1];
      rest
  }

  /** `typeof v === "string" ? v : undefined`. */
  function AsString(v: Option<Json>): (r: Option<string>)
    ensures r.Some? <==> v.Some? && v.value.JStr?
  {
    match v
    case Some(JStr(s)) => Some(s)
    case _ => None
  }

  /** `Array.isArray(v)`. */
  predicate IsArray(v: Option<Json>) {
    v.Some? && v.value.JArr?
  }

  /**
    `String(v)`: strings are themselves, arrays join their elements with "," (a `null`
    element contributing ""), and every object is "[object Object]".
  */
  function ToJsString(rt: Runtime, v: Json): (r: string)
    ensures v.JStr? ==> r == v.s
    decreases v
  {
    match v
    case JNull => "null"
    case JBool(b) => if b then "true" else "false"
    case JNum(n) => rt.numberToString(n)
    case JStr(s) => s
    case JArr(items) =>
      Text.Join(seq(|items|, i requires 0 <= i < |items| =>
        if items[i].JNull? then "" else ToJsString(rt, items[i])), ",")
    case JObj(_) => "[object Object]"
  }

  /** The text a template literal `${v}` produces for an optional string. */
  function Interpolate(v: Option<string>): string {
    match v
    case Some(s) => s
    case None => "undefined"
  }
}

=== FILE: llm_provider.dfy ===
/** The adapter error type, the guard every adapter runs first, and the faults a call can raise. */
module LLMProvider {
  import opened Wrappers
  import opened Types

  /** `LLMProviderError`: a message, an optional HTTP status and provider, and whether retrying may help. */
  datatype ProviderError = ProviderError(
    name: string,
    message: string,
    status: Option<int>,
    providerId: Option<ProviderId>,
    retryable: bool)

  /** The constructor's options object; every field may be omitted. */
  datatype ErrorOptions = ErrorOptions(
    status: Option<int>,
    providerId: Option<ProviderId>,
    retryable: Option<bool>)

  /** `new LLMProviderError(message, options)`. */
  function NewProviderError(message: string, options: ErrorOptions): (e: ProviderError)
    ensures e.name == "LLMProviderError"
    ensures e.message == message
    ensures e.status == options.status && e.providerId == options.providerId
    ensures e.retryable <==> options.retryable == Some(true)
  {
    ProviderError("LLMProviderError", message, options.status, options.providerId, options.retryable.GetOr(false))
  }

  /**
    Anything a provider call can throw: an `LLMProviderError`, or some other `Error`
    (a `TypeError`, a transport failure, an `AbortError`), identified by name and message.
  */
  datatype Fault = ProviderFault(error: ProviderError) | ErrorFault(name: string, message: string)

  /** The error `ensureApiKey` throws for a provider. */
  function MissingKeyError(id: ProviderId): ProviderError {
    NewProviderError("Missing API key for provider " + IdText(id), ErrorOptions(None, Some(id), Some(false)))
  }

  /** `ensureApiKey`: passes exactly when the key is a non-empty string. */
  function EnsureApiKey(config: ProviderCredential, id: ProviderId): (r: Result<(), ProviderError>)
    ensures r.Ok? <==> config.apiKey != ""
    ensures r.Err? ==> && r.error.message == "Missing API key for provider " + IdText(id)
                       && r.error.providerId == Some(id)
                       && r.error.status == None
                       && !r.error.retryable
  {
    if config.apiKey == "" then Err(MissingKeyError(id)) else Ok(())
  }
}

=== FILE: openai_provider.dfy ===
/** `OpenAIProvider`: the adapter for OpenAI and any OpenAI-compatible ("custom") endpoint. */
module OpenAIProvider {
  import opened Wrappers
  import opened Text
  import opened JsValue
  import opened Types
  import opened LLMProvider
  import opened ProviderHttp

  /** The providers this adapter is constructed for. */
  predicate IsCompatibleId(id: ProviderId) {
    id == OpenAI || id == Custom
  }

  /**
    `buildHeaders`: JSON content type and `Bearer` authorization, `OpenAI-Organization`
    only for a non-empty organization, and the configured extra headers applied last.
  */
  function Headers(c: ProviderCredential): (h: map<string, string>)
    ensures h.Keys == {"Content-Type", "Authorization"} + ExtraKeys(c) +
                      (if c.organization.Some? && c.organization.value != "" then {"OpenAI-Organization"} else {})
    ensures c.extraHeaders.None? || "Content-Type" !in c.extraHeaders.value ==>
              "Content-Type" in h && h["Content-Type"] == "application/json"
    ensures c.extraHeaders.None? || "Authorization" !in c.extraHeaders.value ==>
              "Authorization" in h && h["Authorization"] == "Bearer " + c.apiKey
    ensures c.extraHeaders.None? || "OpenAI-Organization" !in c.extraHeaders.value ==>
              && ("OpenAI-Organization" in h <==> c.organization.Some? && c.organization.value != "")
              && ("OpenAI-Organization" in h ==> h["OpenAI-Organization"] == c.organization.value)
    ensures c.extraHeaders.Some? ==> forall k :: k in c.extraHeaders.value ==> k in h && h[k] == c.extraHeaders.value[k]
  {
    var base := map["Content-Type" := "application/json", "Authorization" := "Bearer " + c.apiKey];
    var withOrganization :=
      if c.organization.Some? && c.organization.value != "" then base["OpenAI-Organization" := c.organization.value]
      else base;
    WithExtraHeaders(withOrganization, c.extraHeaders)
  }

  /** The chat-completions body, plus `reasoning_effort: "low"` exactly when thinking is disabled. */
  function RequestBody(c: ProviderCredential, p: GenerateTitleParams): (body: map<string, Json>)
    ensures "reasoning_effort" in body <==> p.disableThinking == Some(true)
    ensures "reasoning_effort" in body ==> body["reasoning_effort"] == JStr("low")
    ensures forall k :: k in ChatBody(c, p) ==> k in body && body[k] == ChatBody(c, p)[k]
    ensures body.Keys == ChatBody(c, p).Keys + (if p.disableThinking == Some(true) then {"reasoning_effort"} else {})
  {
    var body := ChatBody(c, p);
    assert "reasoning_effort" !in body;
    if p.disableThinking == Some(true) then body["reasoning_effort" := JStr("low")] else body
  }

  /** One entry of an array `content`: `chunk?.text || chunk?.value || ""`, as `join` renders it. */
  function ChunkText(rt: Runtime, chunk: Json): (text: string)
    ensures var t := Get(Some(chunk), "text");
            t.Some? && t.value.JStr? && t.value.s != [] ==> text == t.value.s
    ensures var t := Get(Some(chunk), "text");
            Truthy(t) ==> text == ToJsString(rt, t.value)
    ensures var t := Get(Some(chunk), "text");
            var v := Get(Some(chunk), "value");
            !Truthy(t) && Truthy(v) ==> text == ToJsString(rt, v.value)
    ensures var v := Get(Some(chunk), "value");
            !Truthy(Get(Some(chunk), "text")) && v.Some? && v.value.JStr? && v.value.s != [] ==> text == v.value.s
    ensures !Truthy(Get(Some(chunk), "text")) && !Truthy(Get(Some(chunk), "value")) ==> text == ""
  {
    var picked := Or(Get(Some(chunk), "text"), Get(Some(chunk), "value"));
    if Truthy(picked) then ToJsString(rt, picked.value) else ""
  }

  /**
    `extractMessageContent`: on the first choice, the content of `message` (or of `delta`
    when `message` is null or missing) if it is a string; if it is an array, its chunks
    joined by " "; otherwise the choice's `text` if that is a string; otherwise nothing.
  */
  function ExtractMessageContent(rt: Runtime, body: Json): (r: Option<string>)
    ensures var choice := First(Get(Some(body), "choices"));
            var content := Get(Coalesce(Get(choice, "message"), Get(choice, "delta")), "content");
            && (content.Some? && content.value.JStr? ==> r == Some(content.value.s))
            && (content.Some? && content.value.JArr? ==>
                  r == Some(Join(seq(|content.value.items|, i requires 0 <= i < |content.value.items| =>
                                       ChunkText(rt, content.value.items[i])), " ")))
            && (!(content.Some? && (content.value.JStr? || content.value.JArr?)) ==> r == AsString(Get(choice, "text")))
    ensures r.Some? ==> Get(Some(body), "choices").Some?
  {
    var choice := First(Get(Some(body), "choices"));
    var message := Coalesce(Get(choice, "message"), Get(choice, "delta"));
    match Get(message, "content")
    case Some(JStr(s)) => Some(s)
    case Some(JArr(chunks)) => Some(Join(seq(|chunks|, i requires 0 <= i < |chunks| => ChunkText(rt, chunks[i])), " "))
    case _ => AsString(Get(choice, "text"))
  }

  /**
    The response half of `generateTitle`: a non-OK status is an error carrying the
    status, retryable exactly for 5xx and 429; an OK response yields the trimmed
    completion, and a missing or blank completion is a retryable error embedding the body.
  */
  function Interpret(rt: Runtime, id: ProviderId, resp: Response): (r: Result<string, Fault>)
    ensures !resp.ok ==> r == Err(ProviderFault(StatusError(rt, id, resp, IsRetryableStatus(resp.status))))
    ensures resp.ok ==> (r.Ok? <==> var t := ExtractMessageContent(rt, Data(resp)); t.Some? && !IsBlank(t.value))
    ensures r.Ok? ==> && r.value != [] && IsTrimmed(r.value)
                      && r.value == Trim(ExtractMessageContent(rt, Data(resp)).value)
    ensures resp.ok && r.Err? ==> r.error == ProviderFault(EmptyPayloadError(rt, id, Data(resp)))
  {
    var data := Data(resp);
    if !resp.ok then Err(ProviderFault(StatusError(rt, id, resp, IsRetryableStatus(resp.status))))
    else
      match ExtractMessageContent(rt, data)
      case Some(content) =>
        var trimmed := Trim(content);
        if trimmed == "" then Err(ProviderFault(EmptyPayloadError(rt, id, data)))
        else
          Ok(trimmed)
      case None => Err(ProviderFault(EmptyPayloadError(rt, id, data)))
  }

  /**
    `generateTitle`: a missing key fails before any request; otherwise one POST to
    `<base>/chat/completions`, with the trailing '/' of the base URL stripped, whose
    response `Interpret` reads.
  */
  function GenerateTitle(rt: Runtime, id: ProviderId, cred: ProviderCredential,
                         p: GenerateTitleParams, fetch: Transport): (call: Call<string>)
    requires IsCompatibleId(id)
    ensures cred.apiKey == "" ==> call == Call([], Err(ProviderFault(MissingKeyError(id))))
    ensures cred.apiKey != "" ==>
              && |call.requests| == 1
              && call.requests[0].verb == "POST"
              && call.requests[0].url == StripTrailingSlashes(ChosenBaseUrl(id, cred)) + "/chat/completions"
              && call.requests[0].headers == Headers(AdapterConfig(id, cred))
              && call.requests[0].body == Some(JObj(RequestBody(AdapterConfig(id, cred), p)))
    ensures cred.apiKey != "" && fetch(call.requests[0]).Ok? ==>
              call.result == Interpret(rt, id, fetch(call.requests[0]).value)
    ensures cred.apiKey != "" && fetch(call.requests[0]).Err? ==>
              call.result == Err(Rejected(fetch(call.requests[0]).error))
  {
    var c := AdapterConfig(id, cred);
    var request := HttpRequest("POST", BaseUrl(c) + "/chat/completions", Headers(c), Some(JObj(RequestBody(c, p))));
    Exchange(id, c, request, fetch, (resp: Response) => Interpret(rt, id, resp))
  }

  /**
    `testConnection`: a GET of `<base>/models`; a non-OK status fails with an error that
    carries the status and is never retryable.
  */
  function TestConnection(rt: Runtime, id: ProviderId, cred: ProviderCredential, fetch: Transport): (call: Call<()>)
    requires IsCompatibleId(id)
    ensures cred.apiKey == "" ==> call == Call([], Err(ProviderFault(MissingKeyError(id))))
    ensures cred.apiKey != "" ==>
              call.requests == [HttpRequest("GET", StripTrailingSlashes(ChosenBaseUrl(id, cred)) + "/models",
                                            Headers(AdapterConfig(id, cred)), None)]
    ensures call.result.Err? && call.result.error.ProviderFault? ==> !call.result.error.error.retryable
    ensures cred.apiKey != "" && fetch(call.requests[0]).Ok? ==>
              (call.result.Ok? <==> fetch(call.requests[0]).value.ok)
    ensures cred.apiKey != "" && fetch(call.requests[0]).Ok? && !fetch(call.requests[0]).value.ok ==>
              call.result == Err(ProviderFault(StatusError(rt, id, fetch(call.requests[0]).value, false)))
    ensures cred.apiKey != "" && fetch(call.requests[0]).Err? ==>
              call.result == Err(Rejected(fetch(call.requests[0]).error))
  {
    var c := AdapterConfig(id, cred);
    match EnsureApiKey(c, id)
    case Err(e) => Call([], Err(ProviderFault(e)))
    case Ok(_) =>
      var request := HttpRequest("GET", BaseUrl(c) + "/models", Headers(c), None);
      match fetch(request)
      case Err(f) => Call([request], Err(Rejected(f)))
      case Ok(resp) =>
        if resp.ok then Call([request], Ok(()))
        else Call([request], Err(ProviderFault(StatusError(rt, id, resp, false))))
  }
}

=== FILE: plugin.dfy ===
/**
  `Plugin`: the pure helpers of the SiYuan title-assistant plugin class — context
  normalisation and selection, prompt templating, the settings clamp, base-URL
  sanitising, request headers and the busy-flag guard around title generation.
*/
module Plugin {
  import opened Wrappers
  import opened Text
  import opened JsValue
  import opened LLMProvider

  /** The stored plugin settings that the helpers read. */
  datatype TitleConfig = TitleConfig(
    apiKey: string,
    baseUrl: string,
    model: string,
    temperature: real,
    topP: real,
    maxTokens: real,
    language: string,
    tone: string,
    contextStrategy: string,
    contextMaxChars: int,
    promptTemplate: string)

  /** The built-in prompt: three instruction lines, a blank line, then the content. */
  const DefaultPrompt: string :=
    "Read the following content and craft the most compelling title.\n" +
    "Keep the language as {{language}} with a {{tone}} tone.\n" +
    "Return the title only without extra explanation.\n" +
    "\n" +
    "{{content}}"

  const DefaultLanguage: string := "Chinese (Simplified)"

  const DefaultConfig: TitleConfig := TitleConfig(
    "", "https://api.openai.com/v1", "gpt-4o-mini", 0.5, 0.9, 64.0,
    DefaultLanguage, "balanced", "auto", 1200, DefaultPrompt)

  /** The shortest context limit: `Math.max(200, contextMaxChars)`. */
  const MinContextChars: int := 200

  /** The instruction text of each tone preset; other names have none. */
  function ToneInstruction(tone: string): (r: Option<string>)
    ensures r.Some? <==> tone in {"balanced", "catchy", "technical", "narrative"}
    ensures r.Some? ==> r.value != ""
  {
    if tone == "balanced" then Some("balanced and professional")
    else if tone == "catchy" then Some("attention-grabbing and energetic")
    else if tone == "technical" then Some("technical and precise")
    else if tone == "narrative" then Some("story-driven and warm")
    else None
  }

  function Max(a: int, b: int): int {
    if a >= b then a else b
  }

  /** `text.replace(/\s+/g, " ").trim()` is empty exactly for blank input. */
  lemma NormalizedEmptyIffBlank(text: string)
    ensures Trim(CollapseWhitespace(text)) == "" <==> IsBlank(text)
  {
    var c := CollapseWhitespace(text);
    CollapseKeepsText(text);
    BlankIffNoNonBlank(text);
    BlankIffNoNonBlank(c);
  }

  /** `text.replace(/\s+/g, " ").trim()` keeps the non-whitespace characters. */
  lemma NormalizedKeepsText(text: string)
    ensures NonBlank(Trim(CollapseWhitespace(text))) == NonBlank(text)
  {
    CollapseKeepsText(text);
    NonBlankTrim(CollapseWhitespace(text));
  }

  /** `text.replace(/\s+/g, " ").trim()` is single-spaced and never longer than the input. */
  lemma NormalizedIsSingleSpaced(text: string)
    ensures SingleSpaced(Trim(CollapseWhitespace(text)))
    ensures |Trim(CollapseWhitespace(text))| <= |text|
  {
    CollapseIsSingleSpaced(text);
    SingleSpacedTrim(CollapseWhitespace(text));
  }

  /**
    `normalizeContext`: whitespace runs become single spaces, the result is trimmed and
    cut to at most `max(200, contextMaxChars)` characters. It is empty exactly when the
    input is blank.
  */
  function NormalizeContext(text: string, contextMaxChars: int): (r: string)
    ensures r == "" <==> IsBlank(text)
    ensures |r| <= Max(MinContextChars, contextMaxChars)
    ensures r != "" ==> !IsWhitespace(r[0])
    ensures r <= Trim(CollapseWhitespace(text))
    ensures |Trim(CollapseWhitespace(text))| > Max(MinContextChars, contextMaxChars) ==>
              |r| == Max(MinContextChars, contextMaxChars)
  {
    var normalized := Trim(CollapseWhitespace(text));
    NormalizedEmptyIffBlank(text);
    var limit := Max(MinContextChars, contextMaxChars);
    if |normalized| <= limit then normalized else normalized[..limit]
  }

  /**
    The normalised context is a prefix of the collapsed and trimmed text, and all of it
    when that fits within the limit.
  */
  lemma NormalizeContextIsPrefix(text: string, contextMaxChars: int)
    ensures NormalizeContext(text, contextMaxChars) <= Trim(CollapseWhitespace(text))
    ensures |Trim(CollapseWhitespace(text))| <= Max(MinContextChars, contextMaxChars) ==>
              NormalizeContext(text, contextMaxChars) == Trim(CollapseWhitespace(text))
    ensures |Trim(CollapseWhitespace(text))| > Max(MinContextChars, contextMaxChars) ==>
              |NormalizeContext(text, contextMaxChars)| == Max(MinContextChars, contextMaxChars)
  {
  }

  /**
    The normalised context is single-spaced, its non-whitespace characters are a prefix of
    the input's, and when the input fits within the limit none of them is lost.
  */
  lemma NormalizeContextKeepsText(text: string, contextMaxChars: int)
    ensures var r := NormalizeContext(text, contextMaxChars);
            && SingleSpaced(r)
            && NonBlank(r) <= NonBlank(text)
            && (|text| <= Max(MinContextChars, contextMaxChars) ==> NonBlank(r) == NonBlank(text))
  {
    var n := Trim(CollapseWhitespace(text));
    NormalizeContextIsPrefix(text, contextMaxChars);
    NormalizedKeepsText(text);
    NormalizedIsSingleSpaced(text);
    PrefixKeepsShape(n, NormalizeContext(text, contextMaxChars));
  }

  /**
    Words stay apart: for trimmed non-empty `a` and `b` with whitespace between them, the
    normalised text is the normalised `a`, exactly one space and the normalised `b`, and
    so is the normalised context when the input fits within the limit.
  */
  lemma NormalizeContextSeparatesWords(a: string, ws: string, b: string, contextMaxChars: int)
    requires a != [] && IsTrimmed(a) && b != [] && IsTrimmed(b)
    requires ws != [] && IsBlank(ws)
    ensures Trim(CollapseWhitespace(a + ws + b)) == Trim(CollapseWhitespace(a)) + " " + Trim(CollapseWhitespace(b))
    ensures |a + ws + b| <= Max(MinContextChars, contextMaxChars) ==>
              NormalizeContext(a + ws + b, contextMaxChars) ==
              NormalizeContext(a, contextMaxChars) + " " + NormalizeContext(b, contextMaxChars)
  {
    var ca := CollapseWhitespace(a);
    var cb := CollapseWhitespace(b);
    WordsStaySeparated(a, ws, b);
    CollapseKeepsLastWordChar(a);
    CollapseKeepsLastWordChar(b);
    TrimmedIsFixpoint(ca);
    TrimmedIsFixpoint(cb);
    var whole := ca + " " + cb;
    assert whole[0] == ca[0];
    assert whole[|whole| - 1] == cb[|cb| - 1];
    TrimmedIsFixpoint(whole);
    NormalizedIsSingleSpaced(a + ws + b);
    NormalizedIsSingleSpaced(a);
    NormalizedIsSingleSpaced(b);
  }

  /** The values the template's placeholders stand for. */
  datatype Replacements = Replacements(content: string, language: string, tone: string)

  /** The placeholder names the pattern accepts. */
  datatype Key = Content | Language | Tone

  function Name(key: Key): (name: string)
    ensures |name| >= 4 && name[0] != '{' && name[0] != '}' && !IsWhitespace(name[0])
  {
    match key
    case Content => "content"
    case Language => "language"
    case Tone => "tone"
  }

  /** `replacements[key] || ""`: the value of a placeholder name. */
  function ValueOf(rep: Replacements, key: Key): string {
    match key
    case Content => rep.content
    case Language => rep.language
    case Tone => rep.tone
  }

  /** `s` begins with `p`. */
  predicate StartsWith(s: string, p: string) {
    |p| <= |s| && s[..|p|] == p
  }

  /** The placeholder name `s` starts with, if any; the names' first letters differ. */
  function KeyAt(s: string): (r: Option<Key>)
    ensures r.Some? ==> StartsWith(s, Name(r.value))
  {
    if StartsWith(s, Name(Content)) then Some(Content)
    else if StartsWith(s, Name(Language)) then Some(Language)
    else if StartsWith(s, Name(Tone)) then Some(Tone)
    else None
  }

  /** A name followed by anything is found as that name. */
  lemma KeyAtFinds(key: Key, rest: string)
    ensures KeyAt(Name(key) + rest) == Some(key)
  {
    var s := Name(key) + rest;
    assert s[..|Name(key)|] == Name(key);
    assert s[0] == Name(key)[0];
  }

  /** The closing part of a match: whitespace, then "}}", from position `at`. */
  function CloseAt(s: string, key: Key, at: nat): (r: Option<(Key, nat)>)
    requires at <= |s|
    ensures r.Some? ==> r.value.0 == key && at + 2 <= r.value.1 <= |s|
  {
    var close := at + WhitespaceRun(s[at..]);
    if StartsWith(s[close..], "}}") then Some((key, close + 2)) else None
  }

  /** The opening part of a match: "{{", whitespace and a name; the name and the position after it. */
  function OpenAt(s: string): (r: Option<(Key, nat)>)
    ensures r.Some? ==> 2 + |Name(r.value.0)| <= r.value.1 <= |s| && s[0] == '{'
  {
    if |s| >= 2 && s[0] == '{' && s[1] == '{' then
      var lead := 2 + WhitespaceRun(s[2..]);
      var key := KeyAt(s[lead..]);
      if key.Some? then Some((key.value, lead + |Name(key.value)|)) else None
    else None
  }

  /**
    A match of `{{\s*(content|language|tone)\s*}}` at the start of `s`: the name and the
    length of the match. Names contain no whitespace or braces, so the greedy runs
    determine the match.
  */
  function PlaceholderAt(s: string): (r: Option<(Key, nat)>)
    ensures r.Some? ==> 4 + |Name(r.value.0)| <= r.value.1 <= |s|
    ensures r.Some? ==> s[0] == '{'
  {
    var open := OpenAt(s);
    if open.Some? then CloseAt(s, open.value.0, open.value.1) else None
  }

  /**
    `template.replace(/{{\s*(content|language|tone)\s*}}/g, …)`: one left-to-right pass
    that replaces each match by its value and copies every other character.
  */
  function Render(s: string, rep: Replacements): (r: string)
    ensures '{' !in s ==> r == s
    decreases |s|
  {
    if s == [] then []
    else
      match PlaceholderAt(s)
      case Some((key, n)) => ValueOf(rep, key) + Render(s[n..], rep)
      case None => [s[0]] + Render(s[1..], rep)
  }

  /** A placeholder written with the given whitespace around its name. */
  function Token(key: Key, before: string, after: string): string {
    "{{" + before + Name(key) + after + "}}"
  }

  /** A character that does not open a brace is copied as it is. */
  lemma PlainCharIsCopied(s: string, rep: Replacements)
    requires s != [] && s[0] != '{'
    ensures Render(s, rep) == [s[0]] + Render(s[1..], rep)
  {
    assert PlaceholderAt(s) == None;
  }

  /** One character that does not open a brace, followed by anything, is copied. */
  lemma PlainStep(a: string, b: string, rep: Replacements)
    requires a != [] && a[0] != '{'
    ensures Render(a + b, rep) == [a[0]] + Render(a[1..] + b, rep)
  {
    var s := a + b;
    assert s[0] == a[0] && s[1..] == a[1..] + b;
    PlainCharIsCopied(s, rep);
  }

  /** Text without an opening brace is copied and scanning resumes right after it. */
  lemma {:induction false} RenderPlainPrefix(a: string, b: string, rep: Replacements)
    requires '{' !in a
    ensures Render(a + b, rep) == a + Render(b, rep)
    decreases |a|
  {
    if a != [] {
      var tail := a[1..];
      NoBraceInTail(a);
      PlainStep(a, b, rep);
      RenderPlainPrefix(tail, b, rep);
      calc {
        Render(a + b, rep);
        [a[0]] + Render(tail + b, rep);
        [a[0]] + (tail + Render(b, rep));
        ([a[0]] + tail) + Render(b, rep);
        { assert a == [a[0]] + tail; }
        a + Render(b, rep);
      }
    } else {
      assert a + b == b;
    }
  }

  lemma NoBraceInTail(a: string)
    requires a != [] && '{' !in a
    ensures '{' !in a[1..]
  {
    assert forall i :: 0 <= i < |a[1..]| ==> a[1..][i] == a[i + 1];
  }

  /** Whitespace and "}}" after a name close the match. */
  lemma ClosingIsMatched(s: string, key: Key, at: nat, after: string, rest: string)
    requires at <= |s| && s[at..] == after + ("}}" + rest) && IsBlank(after)
    ensures CloseAt(s, key, at) == Some((key, at + |after| + 2))
  {
    WhitespaceRunOfBlank(after, "}}" + rest);
    DropKnownPrefix(s, at, after, "}}" + rest);
    assert s[at + |after|..][..2] == "}}";
  }

  /** Two braces, a whitespace run and a name open a match. */
  lemma OpeningIsMatched(s: string, lead: nat, key: Key)
    requires |s| >= 2 && s[0] == '{' && s[1] == '{'
    requires lead == 2 + WhitespaceRun(s[2..]) && KeyAt(s[lead..]) == Some(key)
    ensures OpenAt(s) == Some((key, lead + |Name(key)|))
  {
  }

  /** What follows a known prefix of a suffix of `s`. */
  lemma DropKnownPrefix(s: string, i: nat, a: string, b: string)
    requires i <= |s| && s[i..] == a + b
    ensures i + |a| <= |s| && s[i + |a|..] == b
  {
    assert s[i + |a|..] == (a + b)[|a|..];
  }

  /** A match is an opening followed by its closing. */
  lemma OpenThenClose(s: string, key: Key, at: nat, n: nat)
    requires at <= |s| && OpenAt(s) == Some((key, at)) && CloseAt(s, key, at) == Some((key, n))
    ensures PlaceholderAt(s) == Some((key, n))
  {
  }

  /** Braces, blank `before` and a name open a match that ends after the name. */
  lemma OpeningOfLayout(s: string, key: Key, before: string, tail: string)
    requires IsBlank(before)
    requires |s| >= 2 && s[0] == '{' && s[1] == '{'
    requires s[2..] == before + (Name(key) + tail)
    ensures OpenAt(s) == Some((key, 2 + |before| + |Name(key)|))
  {
    var lead := 2 + |before|;
    WhitespaceRunOfBlank(before, Name(key) + tail);
    DropKnownPrefix(s, 2, before, Name(key) + tail);
    KeyAtFinds(key, tail);
    OpeningIsMatched(s, lead, key);
  }

  /** Braces, blank `before`, a name, blank `after` and "}}" at the start of `s` form one match. */
  lemma LayoutIsMatched(s: string, key: Key, before: string, after: string, rest: string, n: nat)
    requires IsBlank(before) && IsBlank(after)
    requires |s| >= 2 && s[0] == '{' && s[1] == '{'
    requires s[2..] == before + (Name(key) + (after + ("}}" + rest)))
    requires n == 2 + |before| + |Name(key)| + |after| + 2
    ensures PlaceholderAt(s) == Some((key, n))
  {
    var name := Name(key);
    var tail := after + ("}}" + rest);
    var lead := 2 + |before|;
    var at := lead + |name|;
    OpeningOfLayout(s, key, before, tail);
    DropKnownPrefix(s, 2, before, name + tail);
    DropKnownPrefix(s, lead, name, tail);
    ClosingIsMatched(s, key, at, after, rest);
    OpenThenClose(s, key, at, n);
  }

  /** A token followed by text, regrouped from the right. */
  lemma TokenShape(key: Key, before: string, after: string, rest: string)
    ensures var s := Token(key, before, after) + rest;
      && |s| >= 2 && s[0] == '{' && s[1] == '{'
      && s[2..] == before + (Name(key) + (after + ("}}" + rest)))
  {
    var s := Token(key, before, after) + rest;
    assert s == "{{" + (before + (Name(key) + (after + ("}}" + rest))));
  }

  /** Every placeholder token, whatever whitespace surrounds its name, is recognised whole. */
  lemma TokenIsMatched(key: Key, before: string, after: string, rest: string)
    requires IsBlank(before) && IsBlank(after)
    ensures PlaceholderAt(Token(key, before, after) + rest) == Some((key, |Token(key, before, after)|))
  {
    var s := Token(key, before, after) + rest;
    TokenShape(key, before, after, rest);
    var n := |Token(key, before, after)|;
    assert n == 2 + |before| + |Name(key)| + |after| + 2;
    LayoutIsMatched(s, key, before, after, rest, n);
  }

  /**
    A placeholder is replaced by its value and scanning resumes after the placeholder:
    the value itself is never scanned, so braces inside it survive.
  */
  lemma PlaceholderIsReplaced(key: Key, before: string, after: string, rest: string, rep: Replacements)
    requires IsBlank(before) && IsBlank(after)
    ensures Render(Token(key, before, after) + rest, rep) == ValueOf(rep, key) + Render(rest, rep)
  {
    var t := Token(key, before, after);
    TokenIsMatched(key, before, after, rest);
    assert (t + rest)[|t|..] == rest;
  }

  /** A content value that looks like a placeholder is inserted literally. */
  lemma ValuesAreNotRescanned(rep: Replacements)
    requires rep.content == Token(Tone, "", "")
    ensures Render(Token(Content, "", ""), rep) == Token(Tone, "", "")
  {
    PlaceholderIsReplaced(Content, "", "", "", rep);
    assert Token(Content, "", "") + "" == Token(Content, "", "");
  }

  /**
    Text in which no position starts a placeholder is copied unchanged, including every
    brace that opens no match.
  */
  lemma {:induction false} RenderWithoutPlaceholders(s: string, rep: Replacements)
    ensures (forall i :: 0 <= i < |s| ==> PlaceholderAt(s[i..]).None?) ==> Render(s, rep) == s
    decreases |s|
  {
    if s != [] && forall i :: 0 <= i < |s| ==> PlaceholderAt(s[i..]).None? {
      assert s[0..] == s;
      forall i | 0 <= i < |s[1..]|
        ensures PlaceholderAt(s[1..][i..]).None?
      {
        assert s[1..][i..] == s[i + 1..];
      }
      RenderWithoutPlaceholders(s[1..], rep);
      assert s == [s[0]] + s[1..];
    }
  }

  /** A lone '}' after the name closes nothing. */
  lemma SingleBraceDoesNotClose(s: string, key: Key, at: nat)
    requires at <= |s| && s[at..] == "}"
    ensures CloseAt(s, key, at) == None
  {
    assert WhitespaceRun(s[at..]) == 0;
  }

  /** "{{content}" opens a match that never closes. */
  lemma UnclosedIsNoMatch()
    ensures PlaceholderAt("{{content}") == None
  {
    var s := "{{content}";
    assert s[2..] == "" + (Name(Content) + "}");
    OpeningOfLayout(s, Content, "", "}");
    SingleBraceDoesNotClose(s, Content, 9);
  }

  /** `config.language || "Chinese (Simplified)"`. */
  function LanguageText(config: TitleConfig): (r: string)
    ensures r != ""
    ensures config.language != "" ==> r == config.language
  {
    if config.language != "" then config.language else DefaultLanguage
  }

  /** `TONE_INSTRUCTIONS[tone] || TONE_INSTRUCTIONS.balanced`. */
  function ToneText(tone: string): (r: string)
    ensures ToneInstruction(tone).Some? ==> r == ToneInstruction(tone).value
    ensures ToneInstruction(tone).None? ==> r == ToneInstruction("balanced").value
  {
    match ToneInstruction(tone)
    case Some(text) => text
    case None => ToneInstruction("balanced").value
  }

  /** `renderPrompt`: the configured template with the context, language and tone filled in. */
  function RenderPrompt(config: TitleConfig, context: string): (r: string)
    ensures '{' !in config.promptTemplate ==> r == config.promptTemplate
  {
    Render(config.promptTemplate, Replacements(context, LanguageText(config), ToneText(config.tone)))
  }

  /** Brace-free text, then a placeholder: the text is kept and the placeholder replaced. */
  lemma PlaceholderAfterPlainText(lead: string, key: Key, before: string, after: string, rest: string, rep: Replacements)
    requires '{' !in lead && IsBlank(before) && IsBlank(after)
    ensures Render(lead + Token(key, before, after) + rest, rep) == lead + ValueOf(rep, key) + Render(rest, rep)
  {
    var t := Token(key, before, after);
    assert lead + t + rest == lead + (t + rest);
    RenderPlainPrefix(lead, t + rest, rep);
    PlaceholderIsReplaced(key, before, after, rest, rep);
  }

  /**
    In the prompt, brace-free text is kept and a placeholder after it is filled with the
    context for `content`, `language || "Chinese (Simplified)"` for `language`, and the
    tone's instruction (the balanced one for an unknown tone) for `tone`; the rest of
    the template is rendered after it with the same values.
  */
  lemma PromptFillsPlaceholder(config: TitleConfig, context: string, lead: string,
                               key: Key, before: string, after: string, rest: string)
    requires '{' !in lead && IsBlank(before) && IsBlank(after)
    requires config.promptTemplate == lead + Token(key, before, after) + rest
    ensures var rep := Replacements(context, LanguageText(config), ToneText(config.tone));
            var value := match key
                         case Content => context
                         case Language => LanguageText(config)
                         case Tone => ToneText(config.tone);
            RenderPrompt(config, context) == lead + value + Render(rest, rep)
  {
    var rep := Replacements(context, LanguageText(config), ToneText(config.tone));
    PlaceholderAfterPlainText(lead, key, before, after, rest, rep);
  }

  /** `Number(input.value)`, as far as the clamp can tell the cases apart. */
  datatype Parsed = NotANumber | Finite(value: real) | PlusInfinity | MinusInfinity

  /**
    The number-input clamp: `Math.min(max, Math.max(min, isNaN(parsed) ? initial : parsed))`.
    An unparsable entry falls back to the value the field was created with; infinities land on the bounds.
  */
  function Clamp(initial: real, min: real, max: real, parsed: Parsed): (r: real)
    ensures r <= max
    ensures min <= max ==> min <= r
    ensures parsed.Finite? && min <= parsed.value <= max ==> r == parsed.value
    ensures parsed.NotANumber? && min <= initial <= max ==> r == initial
    ensures parsed.PlusInfinity? ==> r == max
    ensures parsed.MinusInfinity? && min <= max ==> r == min
    ensures parsed.Finite? && parsed.value > max ==> r == max
    ensures parsed.Finite? && parsed.value < min && min <= max ==> r == min
    ensures parsed.NotANumber? && initial > max ==> r == max
    ensures parsed.NotANumber? && initial < min && min <= max ==> r == min
    ensures min > max ==> r == max
  {
    var candidate := match parsed
      case NotANumber => Some(initial)
      case Finite(v) => Some(v)
      case PlusInfinity => None
      case MinusInfinity => Some(min);
    match candidate
    case None => max
    case Some(v) =>
      var atLeast := if v >= min then v else min;
      if atLeast <= max then atLeast else max
  }

  /** Committing a clamped value again leaves it where it is. */
  lemma ClampIdempotent(initial: real, min: real, max: real, parsed: Parsed)
    requires min <= max
    ensures var once := Clamp(initial, min, max, parsed);
            Clamp(once, min, max, Finite(once)) == once
  {
  }

  /** `getSanitizedBaseUrl`: the configured base URL without its trailing '/' run. */
  function SanitizedBaseUrl(config: TitleConfig): (r: string)
    ensures |r| <= |config.baseUrl| && r == config.baseUrl[..|r|]
    ensures forall i :: |r| <= i < |config.baseUrl| ==> config.baseUrl[i] == '/'
    ensures r == [] || r[|r| - 1] != '/'
  {
    StripTrailingSlashes(config.baseUrl)
  }

  /** `buildHeaders`: JSON content type, and a Bearer `Authorization` only with a key. */
  function BuildHeaders(config: TitleConfig): (h: map<string, string>)
    ensures "Content-Type" in h && h["Content-Type"] == "application/json"
    ensures "Authorization" in h <==> config.apiKey != ""
    ensures "Authorization" in h ==> h["Authorization"] == "Bearer " + config.apiKey
    ensures h.Keys <= {"Content-Type", "Authorization"}
  {
    var headers := map["Content-Type" := "application/json"];
    if config.apiKey != "" then headers["Authorization" := "Bearer " + config.apiKey] else headers
  }

  /** The text `extractContext` normalises, or nothing when the strategy finds none. */
  function ContextSource(strategy: string, selection: Option<string>, documentText: Option<string>): (r: Option<string>)
    ensures var picked := if selection.Some? then Trim(selection.value) else "";
            var doc := if documentText.Some? then documentText.value else "";
            && (strategy == "selection" ==> (r.Some? <==> picked != "") && (r.Some? ==> r.value == picked))
            && (strategy == "auto" && picked != "" ==> r == Some(picked))
            && (strategy != "selection" && !(strategy == "auto" && picked != "") ==> r == Some(doc))
  {
    var selectionText := if selection.Some? then Some(Trim(selection.value)) else None;
    var doc := if documentText.Some? then documentText.value else "";
    if strategy == "selection" then
      if selectionText.Some? && selectionText.value != "" then selectionText else None
    else if strategy == "auto" && selectionText.Some? && selectionText.value != "" then selectionText
    else Some(doc)
  }

  /**
    `extractContext`: the selection or the document as the strategy picks, normalised;
    "selection" without a non-blank selection gives nothing.
  */
  function ExtractContext(config: TitleConfig, selection: Option<string>, documentText: Option<string>): (r: Option<string>)
    ensures r.Some? <==> ContextSource(config.contextStrategy, selection, documentText).Some?
    ensures r.Some? ==> r.value == NormalizeContext(ContextSource(config.contextStrategy, selection, documentText).value, config.contextMaxChars)
  {
    match ContextSource(config.contextStrategy, selection, documentText)
    case Some(text) => Some(NormalizeContext(text, config.contextMaxChars))
    case None => None
  }

  /** Only "selection" can come back empty-handed; any other strategy always has a text. */
  lemma OnlySelectionStrategyCanFail(config: TitleConfig, selection: Option<string>, documentText: Option<string>)
    requires config.contextStrategy != "selection"
    ensures ExtractContext(config, selection, documentText).Some?
  {
    var picked := if selection.Some? then Trim(selection.value) else "";
    assert ContextSource(config.contextStrategy, selection, documentText).Some?;
  }

  /** The "document" strategy ignores the selection. */
  lemma DocumentStrategyIgnoresSelection(config: TitleConfig, s1: Option<string>, s2: Option<string>, documentText: Option<string>)
    requires config.contextStrategy == "document"
    ensures ExtractContext(config, s1, documentText) == ExtractContext(config, s2, documentText)
  {
  }

  /** What one press of the generate command comes to. */
  datatype Outcome =
    | AlreadyBusy
    | NeedApiKey
    | NoEditor
    | ContextUnavailable
    | Shown(title: string)
    | Failed(fault: Fault)

  /**
    One run of `handleGenerateTitle`: the prompt sent (if any), whether the busy flag
    was set while the request was pending, the outcome, and the flag afterwards.
  */
  datatype Run = Run(prompt: Option<string>, busyDuringRequest: bool, outcome: Outcome, busyAfter: bool)

  /**
    `handleGenerateTitle`: ignored while a request is pending; otherwise the key, the
    editor and the context are checked in that order, and the request runs with the
    busy flag set, which `finally` clears whatever the request does. The editor is
    given as its text (`innerText`, possibly missing), `request` stands for `requestTitle`.
  */
  function HandleGenerateTitle(busy: bool, config: TitleConfig, editor: Option<Option<string>>,
                               selection: Option<string>, request: string -> Result<string, Fault>): (run: Run)
    ensures busy ==> run == Run(None, true, AlreadyBusy, true)
    ensures !busy ==> !run.busyAfter
    ensures run.prompt.Some? <==>
              && !busy && config.apiKey != "" && editor.Some?
              && var context := ExtractContext(config, selection, editor.value);
                 context.Some? && context.value != ""
    ensures run.prompt.Some? ==>
              && run.busyDuringRequest
              && run.prompt.value == RenderPrompt(config, ExtractContext(config, selection, editor.value).value)
              && run.outcome == (match request(run.prompt.value)
                                 case Ok(title) => Shown(title)
                                 case Err(f) => Failed(f))
    ensures !busy && config.apiKey == "" ==> run == Run(None, false, NeedApiKey, false)
    ensures !busy && config.apiKey != "" && editor.None? ==> run == Run(None, false, NoEditor, false)
    ensures !busy && config.apiKey != "" && editor.Some? &&
            (ExtractContext(config, selection, editor.value).None? ||
             ExtractContext(config, selection, editor.value).value == "") ==>
              run == Run(None, false, ContextUnavailable, false)
    ensures !busy && run.prompt.None? ==> !run.busyDuringRequest
  {
    if busy then Run(None, true, AlreadyBusy, true)
    else if config.apiKey == "" then Run(None, false, NeedApiKey, false)
    else
      match editor
      case None => Run(None, false, NoEditor, false)
      case Some(documentText) =>
        var context := ExtractContext(config, selection, documentText);
        if context.None? || context.value == "" then Run(None, false, ContextUnavailable, false)
        else
          var prompt := RenderPrompt(config, context.value);
          var outcome := match request(prompt)
            case Ok(title) => Shown(title)
            case Err(f) => Failed(f);
          Run(Some(prompt), true, outcome, false)
  }

  /**
    A title is shown exactly when a prompt was sent and `requestTitle` answered with it,
    and a failure is reported exactly when the request that was sent failed.
  */
  lemma TitleShownIffRequestSucceeds(busy: bool, config: TitleConfig, editor: Option<Option<string>>,
                                     selection: Option<string>, request: string -> Result<string, Fault>)
    ensures var run := HandleGenerateTitle(busy, config, editor, selection, request);
            && (run.outcome.Shown? <==> run.prompt.Some? && request(run.prompt.value).Ok?)
            && (run.outcome.Shown? ==> run.outcome.title == request(run.prompt.value).value)
            && (run.outcome.Failed? <==> run.prompt.Some? && request(run.prompt.value).Err?)
            && (run.outcome.Failed? ==> run.outcome.fault == request(run.prompt.value).error)
  {
  }
}

=== FILE: provider_config.dfy ===
/** The provider metadata table, the default credentials and the default/override merge. */
module ProviderConfig {
  import opened Wrappers
  import opened Types

  /** The label each provider is shown under. */
  function DisplayName(id: ProviderId): string {
    match id
    case OpenAI => "OpenAI / Compatible"
    case Anthropic => "Anthropic Claude"
    case Gemini => "Google Gemini"
    case DeepSeek => "DeepSeek"
    case Zhipu => "Zhipu GLM"
    case Custom => "Custom OpenAI-compatible"
  }

  /** The metadata table: one entry per provider, each keyed by its own id. */
  function Metadata(id: ProviderId): (m: ProviderMeta)
    ensures m.id == id && m.displayName == DisplayName(id)
    ensures m.requiresApiKey && m.supportsCustomBaseUrl
    ensures m.defaultBaseUrl != [] && m.defaultModel != []
  {
    match id
    case OpenAI => ProviderMeta(OpenAI, DisplayName(OpenAI),
      "Official OpenAI endpoint or any fully compatible gateway",
      "https://api.openai.com/v1", "gpt-4o-mini", true, true)
    case Anthropic => ProviderMeta(Anthropic, DisplayName(Anthropic),
      "Claude 3.5 Sonnet and related models",
      "https://api.anthropic.com", "claude-3-5-sonnet-20241022", true, true)
    case Gemini => ProviderMeta(Gemini, DisplayName(Gemini),
      "Gemini 1.5 Pro and Flash models",
      "https://generativelanguage.googleapis.com/v1beta", "gemini-1.5-pro-latest", true, true)
    case DeepSeek => ProviderMeta(DeepSeek, DisplayName(DeepSeek),
      "DeepSeek Chat and Coder models",
      "https://api.deepseek.com", "deepseek-chat", true, true)
    case Zhipu => ProviderMeta(Zhipu, DisplayName(Zhipu),
      "GLM-4 and related Chinese models. 推荐使用 glm-4 或 glm-4-flash（非推理模型）以获得更快速的标题生成。",
      "https://open.bigmodel.cn/api/paas/v4", "glm-4-flash", true, true)
    case Custom => ProviderMeta(Custom, DisplayName(Custom),
      "Any OpenAI-compatible endpoint using the Chat Completions API",
      "https://api.openai.com/v1", "gpt-4o-mini", true, true)
  }

  /** The OpenAI-compatible custom entry points at the same default endpoint and model as OpenAI. */
  lemma CustomSharesOpenAIDefaults()
    ensures Metadata(Custom).defaultBaseUrl == Metadata(OpenAI).defaultBaseUrl
    ensures Metadata(Custom).defaultModel == Metadata(OpenAI).defaultModel
  {
  }

  /** The default credential of a provider: no key, the metadata's endpoint and model, nothing else. */
  function DefaultCredential(id: ProviderId): (c: ProviderCredential)
    ensures c.apiKey == ""
    ensures c.baseUrl == Some(Metadata(id).defaultBaseUrl)
    ensures c.model == Some(Metadata(id).defaultModel)
    ensures c.organization == None && c.extraHeaders == None
    ensures c.customParams == None && c.preferNonReasoningModel == None
  {
    var m := Metadata(id);
    ProviderCredential("", Some(m.defaultBaseUrl), Some(m.defaultModel), None, None, None, None)
  }

  /** One field of `{...base, ...over}`: present in `over` wins, otherwise the base value stays. */
  function Pick<T>(base: Option<T>, over: Option<T>): Option<T> {
    if over.Some? then over else base
  }

  /** `{...base, ...over}` for two credentials. */
  function Spread(base: ProviderCredential, over: ProviderCredential): ProviderCredential {
    ProviderCredential(
      over.apiKey,
      Pick(base.baseUrl, over.baseUrl),
      Pick(base.model, over.model),
      Pick(base.organization, over.organization),
      Pick(base.extraHeaders, over.extraHeaders),
      Pick(base.customParams, over.customParams),
      Pick(base.preferNonReasoningModel, over.preferNonReasoningModel))
  }

  /**
    A field present in `over` appears in `r` with the value it has in `over`; a field
    absent from `over` keeps its value from `base`.
  */
  ghost predicate OverridesWin(base: ProviderCredential, over: ProviderCredential, r: ProviderCredential) {
    && r.apiKey == over.apiKey
    && r.baseUrl == (if over.baseUrl.Some? then over.baseUrl else base.baseUrl)
    && r.model == (if over.model.Some? then over.model else base.model)
    && r.organization == (if over.organization.Some? then over.organization else base.organization)
    && r.extraHeaders == (if over.extraHeaders.Some? then over.extraHeaders else base.extraHeaders)
    && r.customParams == (if over.customParams.Some? then over.customParams else base.customParams)
    && r.preferNonReasoningModel ==
         (if over.preferNonReasoningModel.Some? then over.preferNonReasoningModel else base.preferNonReasoningModel)
  }

  /**
    `resolveProviderCredential`: the provider's default credential overlaid with the
    user's overrides, if any. Total: defined for every provider and every override.
  */
  function Resolve(id: ProviderId, overrides: Option<ProviderCredential>): (r: ProviderCredential)
    ensures overrides == None ==> r == DefaultCredential(id)
    ensures overrides.Some? ==> OverridesWin(DefaultCredential(id), overrides.value, r)
    ensures r.baseUrl.Some? && r.model.Some?
  {
    match overrides
    case None => DefaultCredential(id)
    case Some(o) => Spread(DefaultCredential(id), o)
  }

  /** Resolving an already resolved credential changes nothing. */
  lemma ResolveIdempotent(id: ProviderId, overrides: Option<ProviderCredential>)
    ensures Resolve(id, Some(Resolve(id, overrides))) == Resolve(id, overrides)
  {
  }

  /** Overriding with the default credential itself yields the default credential. */
  lemma ResolveDefaultIsDefault(id: ProviderId)
    ensures Resolve(id, Some(DefaultCredential(id))) == DefaultCredential(id)
  {
  }
}

=== FILE: provider_factory.dfy ===
/**
  `LLMProviderFactory`: a registry that creates the adapter for a provider the first
  time it is asked for and hands back the same instance afterwards. The registry is a
  value; `created` records every call of `create`, standing for the constructor side
  effect a caller could count.
*/
module ProviderFactory {
  import opened Types
  import ProviderConfig

  /** Which adapter class implements a provider. */
  datatype AdapterKind = OpenAICompatible | AnthropicMessages | GeminiGenerateContent | DeepSeekChat | ZhipuChat

  /** An adapter instance: its class, the provider id it was built for, and its display name. */
  datatype Adapter = Adapter(kind: AdapterKind, id: ProviderId, displayName: string)

  /**
    `create`: `openai` and `custom` both get the OpenAI-compatible adapter built with
    that id, every other provider its own adapter; the id set is closed, so the
    "Unsupported provider" branch has no input that reaches it.
  */
  function Create(id: ProviderId): (a: Adapter)
    ensures a.id == id
    ensures a.displayName == ProviderConfig.Metadata(id).displayName
    ensures a.kind == OpenAICompatible <==> id == OpenAI || id == Custom
    ensures a.kind == KindOf(id)
  {
    Adapter(KindOf(id), id, ProviderConfig.DisplayName(id))
  }

  /** The adapter class `create` picks for a provider. */
  function KindOf(id: ProviderId): (kind: AdapterKind)
    ensures kind == OpenAICompatible <==> id == OpenAI || id == Custom
    ensures kind == AnthropicMessages <==> id == Anthropic
    ensures kind == GeminiGenerateContent <==> id == Gemini
    ensures kind == DeepSeekChat <==> id == DeepSeek
    ensures kind == ZhipuChat <==> id == Zhipu
  {
    match id
    case OpenAI => OpenAICompatible
    case Custom => OpenAICompatible
    case Anthropic => AnthropicMessages
    case Gemini => GeminiGenerateContent
    case DeepSeek => DeepSeekChat
    case Zhipu => ZhipuChat
  }

  /** The static registry map, and the ids `create` has been called for, in call order. */
  datatype Registry = Registry(instances: map<ProviderId, Adapter>, created: seq<ProviderId>)

  /** The registry when the process starts. */
  const Empty: Registry := Registry(map[], [])

  ghost predicate NoDuplicates(s: seq<ProviderId>) {
    forall i, j :: 0 <= i < j < |s| ==> s[i] != s[j]
  }

  /**
    Registry invariant: every stored instance is the one `create` built for its id, and
    `create` has run exactly once for each stored id and for nothing else.
  */
  ghost predicate Valid(r: Registry) {
    && (forall id :: id in r.instances ==> r.instances[id] == Create(id))
    && (forall id :: id in r.instances <==> id in r.created)
    && NoDuplicates(r.created)
  }

  lemma EmptyIsValid()
    ensures Valid(Empty)
  {
  }

  /**
    `get(id)`: a stored instance is returned as is, with the registry untouched;
    otherwise the instance is created, stored under `id` and returned. Entries for
    other ids are never changed.
  */
  function Get(r: Registry, id: ProviderId): (res: (Registry, Adapter))
    ensures id in res.0.instances && res.1 == res.0.instances[id]
    ensures id in r.instances ==> res.0 == r
    ensures id !in r.instances ==> res.0.created == r.created + [id]
    ensures res.0.instances.Keys == r.instances.Keys + {id}
    ensures forall other :: other != id && other in r.instances ==> res.0.instances[other] == r.instances[other]
  {
    if id in r.instances then (r, r.instances[id])
    else
      var a := Create(id);
      (Registry(r.instances[id := a], r.created + [id]), a)
  }

  /** `get` keeps the registry valid and hands out the adapter built for the id asked for. */
  lemma GetPreservesValid(r: Registry, id: ProviderId)
    requires Valid(r)
    ensures Valid(Get(r, id).0) && Get(r, id).1 == Create(id)
  {
    if id !in r.instances {
      var r' := Get(r, id).0;
      assert id !in r.created;
      assert r'.created == r.created + [id];
      assert NoDuplicates(r'.created);
    }
  }

  /** Asking twice for the same id returns the identical instance and creates nothing more. */
  lemma GetIdempotent(r: Registry, id: ProviderId)
    ensures var (r1, a1) := Get(r, id);
            var (r2, a2) := Get(r1, id);
            r2 == r1 && a2 == a1
  {
  }

  /** A sequence of `get` calls, threading the registry; the adapters returned, in order. */
  function GetAll(r: Registry, ids: seq<ProviderId>): (res: (Registry, seq<Adapter>))
    ensures |res.1| == |ids|
    decreases |ids|
  {
    if ids == [] then (r, [])
    else
      var (r1, a) := Get(r, ids[0]);
      var (r2, rest) := GetAll(r1, ids[1..]);
      (r2, [a] + rest)
  }

  /** Every `get` call keeps the registry valid, so `create` runs at most once per id. */
  lemma {:induction false} GetAllPreservesValid(r: Registry, ids: seq<ProviderId>)
    requires Valid(r)
    ensures Valid(GetAll(r, ids).0)
    decreases |ids|
  {
    if ids != [] {
      GetPreservesValid(r, ids[0]);
      GetAllPreservesValid(Get(r, ids[0]).0, ids[1..]);
    }
  }

  /**
    Over any sequence of `get` calls, the i-th adapter returned is the one stored for
    the i-th requested id.
  */
  lemma {:induction false} GetAllReturnsStoredInstances(r: Registry, ids: seq<ProviderId>)
    ensures forall i :: 0 <= i < |ids| ==>
              (&& ids[i] in GetAll(r, ids).0.instances
               && GetAll(r, ids).1[i] == GetAll(r, ids).0.instances[ids[i]]
)
    decreases |ids|
  {
    if ids != [] {
      var first := Get(r, ids[0]);
      var tail := GetAll(first.0, ids[1..]);
      var whole := GetAll(r, ids);
      assert whole.0 == tail.0 && whole.1 == [first.1] + tail.1;
      GetAllReturnsStoredInstances(first.0, ids[1..]);
      GetAllKeepsEntries(first.0, ids[1..]);
      forall i | 0 <= i < |ids|
        ensures ids[i] in whole.0.instances && whole.1[i] == whole.0.instances[ids[i]]
      {
        if i > 0 {
          assert ids[i] == ids[1..][i - 1];
          assert whole.1[i] == tail.1[i - 1];
        }
      }
    }
  }

  /** Every adapter handed out by a sequence of `get` calls was built for the id that was asked for. */
  lemma GetAllReturnsRequestedAdapters(r: Registry, ids: seq<ProviderId>)
    requires Valid(r)
    ensures forall i :: 0 <= i < |ids| ==> GetAll(r, ids).1[i] == Create(ids[i])
  {
    GetAllReturnsStoredInstances(r, ids);
    GetAllPreservesValid(r, ids);
  }

  /** Entries already in the registry survive every later `get` unchanged. */
  lemma {:induction false} GetAllKeepsEntries(r: Registry, ids: seq<ProviderId>)
    ensures var (r', _) := GetAll(r, ids);
            forall id :: id in r.instances ==> id in r'.instances && r'.instances[id] == r.instances[id]
    decreases |ids|
  {
    if ids != [] {
      var (r1, a) := Get(r, ids[0]);
      GetAllKeepsEntries(r1, ids[1..]);
    }
  }
}

=== FILE: provider_http.dfy ===
/**
  What the five adapters share: the request and response records that stand in for
  `fetch`, HTTP status classification, the error built from a failed response, the
  adapter-side credential resolution (`getConfig`), header merging and the
  chat-completions request body.
*/
module ProviderHttp {
  import opened Wrappers
  import opened Text
  import opened JsValue
  import opened Types
  import opened LLMProvider
  import ProviderConfig

  /** One HTTP request as handed to `fetch`: method (`verb`), URL, headers, and the JSON value serialized as body. */
  datatype HttpRequest = HttpRequest(verb: string, url: string, headers: map<string, string>, body: Option<Json>)

  /**
    What `fetch` resolved with: `ok`, `status`, `statusText`, and the body as
    `response.json()` parsed it (`None` when parsing failed).
  */
  datatype Response = Response(ok: bool, status: int, statusText: string, payload: Option<Json>)

  /** Why `fetch` rejected (a network `TypeError`, an `AbortError`): a plain error, never an `LLMProviderError`. */
  datatype Rejection = Rejection(name: string, message: string)

  /** `fetch`: answers a request, or rejects; adapters let the rejection pass unchanged. */
  type Transport = HttpRequest -> Result<Response, Rejection>

  /** A rejection as the fault the adapter call throws. */
  function Rejected(r: Rejection): (f: Fault)
    ensures f.ErrorFault? && f.name == r.name && f.message == r.message
  {
    ErrorFault(r.name, r.message)
  }

  /** An adapter call: the requests it issued, in order, and what it returned or threw. */
  datatype Call<T> = Call(requests: seq<HttpRequest>, result: Result<T, Fault>)

  /** `await response.json().catch(() => ({}))`. */
  function Data(resp: Response): (data: Json)
    ensures resp.payload.Some? ==> data == resp.payload.value
    ensures resp.payload.None? ==> data == EmptyObject
  {
    resp.payload.GetOr(EmptyObject)
  }

  /** Transient statuses: server errors and 429 Too Many Requests. */
  predicate IsRetryableStatus(status: int) {
    status >= 500 || status == 429
  }

  /** `data?.error?.message || response.statusText`, as the text of the error it becomes. */
  function ErrorText(rt: Runtime, data: Json, statusText: string): (text: string)
    ensures var m := Get(Get(Some(data), "error"), "message");
            && (m.Some? && m.value.JStr? && m.value.s != [] ==> text == m.value.s)
            && (!Truthy(m) ==> text == statusText)
  {
    var m := Get(Get(Some(data), "error"), "message");
    if Truthy(m) then ToJsString(rt, m.value) else statusText
  }

  /** The `LLMProviderError` an adapter throws for a non-OK response. */
  function StatusError(rt: Runtime, id: ProviderId, resp: Response, retryable: bool): (e: ProviderError)
    ensures e.message == ErrorText(rt, Data(resp), resp.statusText)
    ensures e.status == Some(resp.status) && e.providerId == Some(id) && e.retryable == retryable
  {
    NewProviderError(ErrorText(rt, Data(resp), resp.statusText),
                     ErrorOptions(Some(resp.status), Some(id), Some(retryable)))
  }

  /** The base URL an adapter falls back to: the credential's when non-empty, else the provider default. */
  function ChosenBaseUrl(id: ProviderId, cred: ProviderCredential): string {
    if cred.baseUrl.Some? && cred.baseUrl.value != "" then cred.baseUrl.value
    else ProviderConfig.Metadata(id).defaultBaseUrl
  }

  /**
    `getConfig`: the credential resolved against the provider's defaults, with the base
    URL replaced by the chosen one minus its trailing '/' characters.
  */
  function AdapterConfig(id: ProviderId, cred: ProviderCredential): (c: ProviderCredential)
    ensures c.apiKey == cred.apiKey
    ensures c.baseUrl == Some(StripTrailingSlashes(ChosenBaseUrl(id, cred)))
    ensures c.model == (if cred.model.Some? then cred.model else Some(ProviderConfig.Metadata(id).defaultModel))
    ensures c.organization == cred.organization && c.extraHeaders == cred.extraHeaders
  {
    var resolved := ProviderConfig.Resolve(id, Some(cred));
    var base := resolved.baseUrl.GetOr("");
    resolved.(baseUrl := Some(StripTrailingSlashes(if base != "" then base else ProviderConfig.Metadata(id).defaultBaseUrl)))
  }

  /** The base URL `${config.baseUrl}` of an adapter configuration. */
  function BaseUrl(c: ProviderCredential): string {
    Interpolate(c.baseUrl)
  }

  /** `Object.assign(headers, config.extraHeaders)` when extra headers are configured. */
  function WithExtraHeaders(headers: map<string, string>, extra: Option<map<string, string>>): (h: map<string, string>)
    ensures extra.None? ==> h == headers
    ensures extra.Some? ==> h.Keys == headers.Keys + extra.value.Keys
    ensures extra.Some? ==> forall k :: k in extra.value ==> h[k] == extra.value[k]
    ensures forall k :: k in headers && (extra.None? || k !in extra.value) ==> h[k] == headers[k]
  {
    match extra
    case None => headers
    case Some(e) => headers + e
  }

  /** The names of the configured extra headers; none when there are no extras. */
  function ExtraKeys(c: ProviderCredential): set<string> {
    if c.extraHeaders.Some? then c.extraHeaders.value.Keys else {}
  }

  /** The `Content-Type`/`Authorization: Bearer` headers of the chat-style adapters, extras applied last. */
  function BearerHeaders(c: ProviderCredential): (h: map<string, string>)
    ensures h.Keys == {"Content-Type", "Authorization"} + ExtraKeys(c)
    ensures c.extraHeaders.None? || "Content-Type" !in c.extraHeaders.value ==>
              "Content-Type" in h && h["Content-Type"] == "application/json"
    ensures c.extraHeaders.None? || "Authorization" !in c.extraHeaders.value ==>
              "Authorization" in h && h["Authorization"] == "Bearer " + c.apiKey
    ensures c.extraHeaders.Some? ==> forall k :: k in c.extraHeaders.value ==> k in h && h[k] == c.extraHeaders.value[k]
  {
    WithExtraHeaders(map["Content-Type" := "application/json", "Authorization" := "Bearer " + c.apiKey], c.extraHeaders)
  }

  /** `{role, content}`. */
  function Message(role: string, content: string): Json {
    JObj(map["role" := JStr(role), "content" := JStr(content)])
  }

  /** The chat-completions body: system then user message, sampling parameters verbatim, no streaming. */
  function ChatBody(c: ProviderCredential, p: GenerateTitleParams): map<string, Json> {
    var base := map[
      "messages" := JArr([Message("system", p.systemPrompt), Message("user", p.prompt)]),
      "temperature" := JNum(p.temperature),
      "top_p" := JNum(p.topP),
      "max_tokens" := JNum(p.maxTokens),
      "stream" := JBool(false)];
    if c.model.Some? then base["model" := JStr(c.model.value)] else base
  }

  /** The one-token probe body sent when the model list is unavailable. */
  function ProbeBody(c: ProviderCredential): map<string, Json> {
    var base := map["messages" := JArr([Message("user", "test")]), "max_tokens" := JNum(1.0)];
    if c.model.Some? then base["model" := JStr(c.model.value)] else base
  }

  /** `content?.trim()` on a value already known to be truthy or absent: a non-string has no `trim`. */
  function TrimValue(content: Option<Json>): (r: Result<Option<string>, Fault>)
    ensures content.None? ==> r == Ok(None)
    ensures content.Some? && content.value.JStr? ==> r == Ok(Some(Trim(content.value.s)))
    ensures content.Some? && !content.value.JStr? ==> r.Err? && r.error.ErrorFault? && r.error.name == "TypeError"
  {
    match content
    case None => Ok(None)
    case Some(JStr(s)) => Ok(Some(Trim(s)))
    case Some(_) => Err(ErrorFault("TypeError", "trim is not a function"))
  }

  /** The retryable error thrown when no usable completion text was found. */
  function EmptyPayloadError(rt: Runtime, id: ProviderId, data: Json): (e: ProviderError)
    ensures e.message == "Empty response payload. Raw response: " + rt.stringify(data)
    ensures e.retryable && e.providerId == Some(id) && e.status == None
  {
    NewProviderError("Empty response payload. Raw response: " + rt.stringify(data),
                     ErrorOptions(None, Some(id), Some(true)))
  }

  /**
    The common tail of the chat-style `generateTitle`s: a missing key fails before any
    request; otherwise exactly one request is sent, a rejected fetch passes its fault
    through, and a response is handed to `interpret`.
  */
  function Exchange(id: ProviderId, c: ProviderCredential, request: HttpRequest,
                    fetch: Transport, interpret: Response -> Result<string, Fault>): (call: Call<string>)
    ensures c.apiKey == "" ==> call == Call([], Err(ProviderFault(MissingKeyError(id))))
    ensures c.apiKey != "" ==> call.requests == [request]
    ensures c.apiKey != "" && fetch(request).Err? ==> call.result == Err(Rejected(fetch(request).error))
    ensures c.apiKey != "" && fetch(request).Ok? ==> call.result == interpret(fetch(request).value)
  {
    match EnsureApiKey(c, id)
    case Err(e) => Call([], Err(ProviderFault(e)))
    case Ok(_) =>
      match fetch(request)
      case Err(f) => Call([request], Err(Rejected(f)))
      case Ok(resp) => Call([request], interpret(resp))
  }

  /** The `GET <base>/models` request that opens the DeepSeek/Zhipu `testConnection`. */
  function ModelsRequest(c: ProviderCredential): HttpRequest {
    HttpRequest("GET", BaseUrl(c) + "/models", BearerHeaders(c), None)
  }

  /** The one-token `POST <base>/chat/completions` request sent when the model list is 404. */
  function ProbeRequest(c: ProviderCredential): HttpRequest {
    HttpRequest("POST", BaseUrl(c) + "/chat/completions", BearerHeaders(c), Some(JObj(ProbeBody(c))))
  }

  /** The model list is missing: a non-OK 404 answer. */
  predicate IsNotFound(resp: Response) {
    !resp.ok && resp.status == 404
  }

  /**
    The DeepSeek/Zhipu `testConnection`: list the models; only on 404 fall back to a
    one-token chat request; a final non-OK status fails with the status-classified error.
  */
  function ModelsThenChatProbe(rt: Runtime, id: ProviderId, c: ProviderCredential, fetch: Transport): (call: Call<()>)
    ensures c.apiKey == "" ==> call == Call([], Err(ProviderFault(MissingKeyError(id))))
    ensures c.apiKey != "" ==> 1 <= |call.requests| <= 2 && call.requests[0] == ModelsRequest(c)
    ensures c.apiKey != "" && fetch(ModelsRequest(c)).Err? ==>
              call == Call([ModelsRequest(c)], Err(Rejected(fetch(ModelsRequest(c)).error)))
    ensures c.apiKey != "" && fetch(ModelsRequest(c)).Ok? && fetch(ModelsRequest(c)).value.ok ==>
              call == Call([ModelsRequest(c)], Ok(()))
    ensures c.apiKey != "" && fetch(ModelsRequest(c)).Ok? && !IsNotFound(fetch(ModelsRequest(c)).value) ==>
              call == Call([ModelsRequest(c)], FinalStatus(rt, id, fetch(ModelsRequest(c)).value))
    ensures c.apiKey != "" && fetch(ModelsRequest(c)).Ok? && IsNotFound(fetch(ModelsRequest(c)).value) ==>
              && call.requests == [ModelsRequest(c), ProbeRequest(c)]
              && (fetch(ProbeRequest(c)).Ok? ==> call.result == FinalStatus(rt, id, fetch(ProbeRequest(c)).value))
              && (fetch(ProbeRequest(c)).Err? ==> call.result == Err(Rejected(fetch(ProbeRequest(c)).error)))
    ensures |call.requests| == 2 <==> c.apiKey != "" && fetch(ModelsRequest(c)).Ok? && IsNotFound(fetch(ModelsRequest(c)).value)
    ensures call.result.Err? && call.result.error.ProviderFault? && call.result.error.error.status.Some? ==>
              call.result.error.error.retryable == IsRetryableStatus(call.result.error.error.status.value)
  {
    match EnsureApiKey(c, id)
    case Err(e) => Call([], Err(ProviderFault(e)))
    case Ok(_) =>
      var models := ModelsRequest(c);
      match fetch(models)
      case Err(f) => Call([models], Err(Rejected(f)))
      case Ok(first) =>
        if IsNotFound(first) then
          var probe := ProbeRequest(c);
          match fetch(probe)
          case Err(f) => Call([models, probe], Err(Rejected(f)))
          case Ok(second) => Call([models, probe], FinalStatus(rt, id, second))
        else Call([models], FinalStatus(rt, id, first))
  }

  /** A final probe response: OK passes, anything else is the status-classified error. */
  function FinalStatus(rt: Runtime, id: ProviderId, resp: Response): (r: Result<(), Fault>)
    ensures r.Ok? <==> resp.ok
    ensures r.Err? ==> r.error == ProviderFault(StatusError(rt, id, resp, IsRetryableStatus(resp.status)))
  {
    if resp.ok then Ok(()) else Err(ProviderFault(StatusError(rt, id, resp, IsRetryableStatus(resp.status))))
  }
}

=== FILE: retry_handler.dfy ===
/**
  `RetryHandler.execute`: bounded retry of one operation with capped exponential backoff
  and cooperative cancellation. Timing is abstracted away: the operation's outcome on
  each attempt, whether the abort signal is set when an attempt fails, and whether it
  fires during a backoff wait are oracles indexed by attempt number.
*/
module RetryHandler {
  import opened Wrappers
  import opened Types
  import opened LLMProvider

  /** What one invocation of the wrapped operation did. */
  datatype Outcome<T> = Returned(value: T) | Threw(fault: Fault)

  /**
    One run of `execute`: the attempt numbers passed to the operation, in order, the
    backoff waits that were begun, and what the run returned or threw.
  */
  datatype Trace<T> = Trace(invoked: seq<int>, waits: seq<int>, result: Result<T, Fault>)

  /** The `DOMException` a backoff wait rejects with when the signal fires. */
  const AbortError: Fault := ErrorFault("AbortError", "Aborted")

  /** Thrown when no attempt was made at all. */
  const ExceededError: Fault := ErrorFault("Error", "Exceeded retry attempts")

  /** `Math.pow(2, n)` for a natural exponent. */
  function Pow2(n: nat): (r: nat)
    ensures r >= 1
  {
    if n == 0 then 1 else 2 * Pow2(n - 1)
  }

  lemma {:induction false} Pow2Monotone(m: nat, n: nat)
    requires m <= n
    ensures Pow2(m) <= Pow2(n)
    decreases n
  {
    if m < n {
      Pow2Monotone(m, n - 1);
    }
  }

  /**
    The wait after failed attempt `attempt`: `baseDelayMs` times `2^(attempt-1)` (or
    times 1 without exponential backoff), capped at `timeoutMs`.
  */
  function Backoff(policy: RetryPolicyConfig, attempt: int): (wait: int)
    requires attempt >= 1
    ensures wait <= policy.timeoutMs
    ensures policy.exponential ==> wait <= policy.baseDelayMs * Pow2(attempt - 1)
    ensures !policy.exponential ==> wait <= policy.baseDelayMs
    ensures wait == policy.timeoutMs
         || wait == policy.baseDelayMs * (if policy.exponential then Pow2(attempt - 1) else 1)
  {
    var multiplier := if policy.exponential then Pow2(attempt - 1) else 1;
    var raw := policy.baseDelayMs * multiplier;
    if raw < policy.timeoutMs then raw else policy.timeoutMs
  }

  /** Waits never shrink from one attempt to the next when the base delay is not negative. */
  lemma BackoffMonotone(policy: RetryPolicyConfig, a: int, b: int)
    requires policy.baseDelayMs >= 0
    requires 1 <= a <= b
    ensures Backoff(policy, a) <= Backoff(policy, b)
  {
    if policy.exponential {
      Pow2Monotone(a - 1, b - 1);
      ScaleMonotone(policy.baseDelayMs, Pow2(a - 1), Pow2(b - 1));
    }
  }

  lemma ScaleMonotone(c: int, x: int, y: int)
    requires c >= 0 && x <= y
    ensures c * x <= c * y
  {
    assert c * y == c * x + c * (y - x);
  }

  /**
    `shouldRetry`: never once the signal is aborted or the budget is spent; an
    `LLMProviderError` decides by its `retryable` flag; any other error is retried.
  */
  predicate ShouldRetry(policy: RetryPolicyConfig, fault: Fault, attempt: int, aborted: bool) {
    if aborted then false
    else if attempt >= policy.maxAttempts then false
    else match fault
      case ProviderFault(e) => e.retryable
      case ErrorFault(_, _) => true
  }

  /** Errors that are not `LLMProviderError`s are retried whenever budget and signal allow. */
  lemma ForeignErrorsAreRetried(policy: RetryPolicyConfig, name: string, message: string, attempt: int, aborted: bool)
    ensures ShouldRetry(policy, ErrorFault(name, message), attempt, aborted)
        <==> !aborted && attempt < policy.maxAttempts
  {
  }

  /** Attempt `a` failed, a retry was decided, and the backoff wait after it completed. */
  ghost predicate Continues<T>(policy: RetryPolicyConfig, op: int -> Outcome<T>,
                               abortedAt: int -> bool, abortedInWait: int -> bool, a: int)
  {
    op(a).Threw? && ShouldRetry(policy, op(a).fault, a, abortedAt(a)) && !abortedInWait(a)
  }

  /**
    Attempt `a` ended the run: it returned, or it failed without a retry being decided
    (the error is rethrown, no wait begins), or the wait after it was aborted.
  */
  ghost predicate EndsRun<T>(policy: RetryPolicyConfig, op: int -> Outcome<T>,
                             abortedAt: int -> bool, abortedInWait: int -> bool,
                             a: int, waitedAfter: bool, result: Result<T, Fault>)
  {
    match op(a)
    case Returned(v) => !waitedAfter && result == Ok(v)
    case Threw(f) =>
      if !ShouldRetry(policy, f, a, abortedAt(a)) then !waitedAfter && result == Err(f)
      else abortedInWait(a) && waitedAfter && result == Err(AbortError)
  }

  /**
    Reference predicate for a run that starts after `from` attempts, `last` being the
    error of attempt `from` if any: attempts `from+1, from+2, ...` are invoked in order,
    within the budget; every attempt but the final one failed and was retried; the final
    one ended the run; each wait begun after attempt `a` is `Backoff(policy, a)`.
  */
  ghost predicate ExplainsFrom<T>(policy: RetryPolicyConfig, op: int -> Outcome<T>,
                                  abortedAt: int -> bool, abortedInWait: int -> bool,
                                  from: nat, last: Option<Fault>, t: Trace<T>)
  {
    var n := |t.invoked|;
    && (forall i :: 0 <= i < n ==> t.invoked[i] == from + i + 1)
    && (forall i :: 0 <= i < |t.waits| ==> t.waits[i] == Backoff(policy, from + i + 1))
    && if policy.maxAttempts <= from then
         n == 0 && t.waits == [] && t.result == Err(last.GetOr(ExceededError))
       else
         && 1 <= n <= policy.maxAttempts - from
         && (forall a :: from < a < from + n ==> Continues(policy, op, abortedAt, abortedInWait, a))
         && (|t.waits| == n || |t.waits| == n - 1)
         && EndsRun(policy, op, abortedAt, abortedInWait, from + n, |t.waits| == n, t.result)
  }

  /** The `while (attempt < maxAttempts)` loop of `execute`, entered after `attempt` attempts. */
  function Loop<T>(policy: RetryPolicyConfig, op: int -> Outcome<T>,
                   abortedAt: int -> bool, abortedInWait: int -> bool,
                   attempt: nat, last: Option<Fault>): (t: Trace<T>)
    ensures ExplainsFrom(policy, op, abortedAt, abortedInWait, attempt, last, t)
    decreases policy.maxAttempts - attempt
  {
    if attempt < policy.maxAttempts then
      var a := attempt + 1;
      match op(a)
      case Returned(v) => Trace([a], [], Ok(v))
      case Threw(f) =>
        if !ShouldRetry(policy, f, a, abortedAt(a)) then Trace([a], [], Err(f))
        else if abortedInWait(a) then Trace([a], [Backoff(policy, a)], Err(AbortError))
        else
          var rest := Loop(policy, op, abortedAt, abortedInWait, a, Some(f));
          var t := Trace([a] + rest.invoked, [Backoff(policy, a)] + rest.waits, rest.result);
          assert Continues(policy, op, abortedAt, abortedInWait, a);
          t
    else
      Trace([], [], Err(last.GetOr(ExceededError)))
  }

  /** The full run characterization for `execute`, starting from attempt 0. */
  ghost predicate Explains<T>(policy: RetryPolicyConfig, op: int -> Outcome<T>,
                              abortedAt: int -> bool, abortedInWait: int -> bool, t: Trace<T>)
  {
    ExplainsFrom(policy, op, abortedAt, abortedInWait, 0, None, t)
  }

  /**
    `execute(operation, {signal})`. The operation is invoked with attempts 1, 2, ...
    and never more than `maxAttempts` times; with no budget it is never invoked and the
    run fails with "Exceeded retry attempts"; a returned value is the value of the first
    successful attempt; the k-th wait is the backoff after attempt k.
  */
  function Execute<T>(policy: RetryPolicyConfig, op: int -> Outcome<T>,
                      abortedAt: int -> bool, abortedInWait: int -> bool): (t: Trace<T>)
    ensures Explains(policy, op, abortedAt, abortedInWait, t)
    ensures forall i :: 0 <= i < |t.invoked| ==> t.invoked[i] == i + 1
    ensures policy.maxAttempts <= 0 ==> t.invoked == [] && t.waits == [] && t.result == Err(ExceededError)
    ensures policy.maxAttempts > 0 ==> 1 <= |t.invoked| <= policy.maxAttempts
    ensures |t.waits| <= |t.invoked|
    ensures forall i :: 0 <= i < |t.waits| ==> t.waits[i] == Backoff(policy, i + 1)
    ensures t.result.Ok? ==> && op(|t.invoked|) == Returned(t.result.value)
                             && forall a :: 1 <= a < |t.invoked| ==> op(a).Threw?
  {
    var t := Loop(policy, op, abortedAt, abortedInWait, 0, None);
    assert forall a :: 1 <= a < |t.invoked| ==> op(a).Threw? by {
      forall a | 1 <= a < |t.invoked|
        ensures op(a).Threw?
      {
        assert Continues(policy, op, abortedAt, abortedInWait, a);
      }
    }
    t
  }

  /** The attempt that ends a run is not one after which the run goes on. */
  lemma EndingAttemptDoesNotContinue<T>(policy: RetryPolicyConfig, op: int -> Outcome<T>,
                                        abortedAt: int -> bool, abortedInWait: int -> bool,
                                        a: int, waitedAfter: bool, result: Result<T, Fault>)
    requires EndsRun(policy, op, abortedAt, abortedInWait, a, waitedAfter, result)
    ensures !Continues(policy, op, abortedAt, abortedInWait, a)
  {
  }

  /** A trace that satisfies the reference predicate is the one `execute` produces. */
  lemma ExplainedTraceIsUnique<T>(policy: RetryPolicyConfig, op: int -> Outcome<T>,
                                  abortedAt: int -> bool, abortedInWait: int -> bool,
                                  from: nat, last: Option<Fault>, t1: Trace<T>, t2: Trace<T>)
    requires ExplainsFrom(policy, op, abortedAt, abortedInWait, from, last, t1)
    requires ExplainsFrom(policy, op, abortedAt, abortedInWait, from, last, t2)
    ensures t1 == t2
  {
    var n1, n2 := |t1.invoked|, |t2.invoked|;
    if policy.maxAttempts > from {
      EndingAttemptDoesNotContinue(policy, op, abortedAt, abortedInWait, from + n1, |t1.waits| == n1, t1.result);
      EndingAttemptDoesNotContinue(policy, op, abortedAt, abortedInWait, from + n2, |t2.waits| == n2, t2.result);
      assert n1 == n2;
      assert t1.invoked == t2.invoked;
      assert |t1.waits| == |t2.waits|;
      assert t1.waits == t2.waits;
    }
  }

  /** `Execute` is the only trace the reference predicate admits. */
  lemma ExecuteIsTheExplainedTrace<T>(policy: RetryPolicyConfig, op: int -> Outcome<T>,
                                      abortedAt: int -> bool, abortedInWait: int -> bool, t: Trace<T>)
    ensures Explains(policy, op, abortedAt, abortedInWait, t) <==> t == Execute(policy, op, abortedAt, abortedInWait)
  {
    if Explains(policy, op, abortedAt, abortedInWait, t) {
      ExplainedTraceIsUnique(policy, op, abortedAt, abortedInWait, 0, None, t,
                             Execute(policy, op, abortedAt, abortedInWait));
    }
  }

  /**
    If attempts `1..k-1` failed and were retried and attempt `k` does not continue,
    the run makes exactly `k` invocations and attempt `k` decides its result.
  */
  lemma RunEndsAtFirstStop<T>(policy: RetryPolicyConfig, op: int -> Outcome<T>,
                              abortedAt: int -> bool, abortedInWait: int -> bool, k: int)
    requires 1 <= k <= policy.maxAttempts
    requires forall a :: 1 <= a < k ==> Continues(policy, op, abortedAt, abortedInWait, a)
    requires !Continues(policy, op, abortedAt, abortedInWait, k)
    ensures var t := Execute(policy, op, abortedAt, abortedInWait);
            |t.invoked| == k && EndsRun(policy, op, abortedAt, abortedInWait, k, |t.waits| == k, t.result)
  {
    var t := Execute(policy, op, abortedAt, abortedInWait);
    var n := |t.invoked|;
    EndingAttemptDoesNotContinue(policy, op, abortedAt, abortedInWait, n, |t.waits| == n, t.result);
    assert n == k;
  }

  /** The first attempt that returns ends the run with its value; no later attempt is made. */
  lemma FirstSuccessIsReturned<T>(policy: RetryPolicyConfig, op: int -> Outcome<T>,
                                  abortedAt: int -> bool, abortedInWait: int -> bool, k: int)
    requires 1 <= k <= policy.maxAttempts
    requires forall a :: 1 <= a < k ==> Continues(policy, op, abortedAt, abortedInWait, a)
    requires op(k).Returned?
    ensures var t := Execute(policy, op, abortedAt, abortedInWait);
            |t.invoked| == k && |t.waits| == k - 1 && t.result == Ok(op(k).value)
  {
    RunEndsAtFirstStop(policy, op, abortedAt, abortedInWait, k);
  }

  /** A non-retryable `LLMProviderError` is rethrown unchanged right after the attempt that raised it. */
  lemma NonRetryableErrorIsRethrown<T>(policy: RetryPolicyConfig, op: int -> Outcome<T>,
                                       abortedAt: int -> bool, abortedInWait: int -> bool, k: int)
    requires 1 <= k <= policy.maxAttempts
    requires forall a :: 1 <= a < k ==> Continues(policy, op, abortedAt, abortedInWait, a)
    requires op(k).Threw? && op(k).fault.ProviderFault? && !op(k).fault.error.retryable
    ensures var t := Execute(policy, op, abortedAt, abortedInWait);
            |t.invoked| == k && |t.waits| == k - 1 && t.result == Err(op(k).fault)
  {
    RunEndsAtFirstStop(policy, op, abortedAt, abortedInWait, k);
  }

  /** A failure while the signal is already aborted is rethrown with no wait and no further attempt. */
  lemma AbortedFailureIsRethrown<T>(policy: RetryPolicyConfig, op: int -> Outcome<T>,
                                    abortedAt: int -> bool, abortedInWait: int -> bool, k: int)
    requires 1 <= k <= policy.maxAttempts
    requires forall a :: 1 <= a < k ==> Continues(policy, op, abortedAt, abortedInWait, a)
    requires op(k).Threw? && abortedAt(k)
    ensures var t := Execute(policy, op, abortedAt, abortedInWait);
            |t.invoked| == k && |t.waits| == k - 1 && t.result == Err(op(k).fault)
  {
    RunEndsAtFirstStop(policy, op, abortedAt, abortedInWait, k);
  }

  /** An abort during the wait after attempt `k` fails the run with `AbortError`; attempt `k+1` never starts. */
  lemma AbortDuringWaitFails<T>(policy: RetryPolicyConfig, op: int -> Outcome<T>,
                                abortedAt: int -> bool, abortedInWait: int -> bool, k: int)
    requires 1 <= k <= policy.maxAttempts
    requires forall a :: 1 <= a < k ==> Continues(policy, op, abortedAt, abortedInWait, a)
    requires op(k).Threw? && ShouldRetry(policy, op(k).fault, k, abortedAt(k)) && abortedInWait(k)
    ensures var t := Execute(policy, op, abortedAt, abortedInWait);
            |t.invoked| == k && |t.waits| == k && t.result == Err(AbortError)
  {
    RunEndsAtFirstStop(policy, op, abortedAt, abortedInWait, k);
  }

  /**
    When every attempt fails retryably and nothing aborts, exactly `maxAttempts`
    invocations happen, the waits are the backoffs after attempts 1..maxAttempts-1, and
    the last attempt's error is thrown.
  */
  lemma AllAttemptsFailing<T>(policy: RetryPolicyConfig, op: int -> Outcome<T>,
                              abortedAt: int -> bool, abortedInWait: int -> bool)
    requires policy.maxAttempts >= 1
    requires forall a :: 1 <= a <= policy.maxAttempts ==>
               && op(a).Threw?
               && (op(a).fault.ProviderFault? ==> op(a).fault.error.retryable)
               && !abortedAt(a) && !abortedInWait(a)
    ensures var t := Execute(policy, op, abortedAt, abortedInWait);
            && |t.invoked| == policy.maxAttempts
            && t.waits == seq(policy.maxAttempts - 1, i requires 0 <= i < policy.maxAttempts - 1 => Backoff(policy, i + 1))
            && t.result == Err(op(policy.maxAttempts).fault)
  {
    var k := policy.maxAttempts;
    forall a | 1 <= a < k
      ensures Continues(policy, op, abortedAt, abortedInWait, a)
    {
    }
    RunEndsAtFirstStop(policy, op, abortedAt, abortedInWait, k);
  }

  /** Three retryable failures with base 100 ms and exponential backoff: invoked 3 times, waits 100 then 200. */
  lemma ThreeRetryableFailures(e: ProviderError, abortedAt: int -> bool, abortedInWait: int -> bool)
    requires e.retryable
    requires forall a :: !abortedAt(a) && !abortedInWait(a)
    ensures var policy := RetryPolicyConfig(3, 100, true, 10000);
            var t := Execute(policy, (a: int) => Outcome<()>.Threw(ProviderFault(e)), abortedAt, abortedInWait);
            t.invoked == [1, 2, 3] && t.waits == [100, 200] && t.result == Err(ProviderFault(e))
  {
    var policy := RetryPolicyConfig(3, 100, true, 10000);
    var op := (a: int) => Outcome<()>.Threw(ProviderFault(e));
    AllAttemptsFailing(policy, op, abortedAt, abortedInWait);
    var t := Execute(policy, op, abortedAt, abortedInWait);
    assert Pow2(1) == 2;
    assert t.waits == [Backoff(policy, 1), Backoff(policy, 2)];
  }
}

=== FILE: text.dfy ===
/**
  The string operations the providers and the plugin rely on: JavaScript's whitespace
  class (`\s`, which is also exactly what `String.prototype.trim` removes), trimming,
  whitespace collapsing, trailing-slash stripping, splitting and joining.
  Strings are sequences of characters; lengths count characters, not UTF-16 code units.
*/
module Text {

  /** The characters matched by `\s` and removed by `trim()`: WhiteSpace and LineTerminator. */
  predicate IsWhitespace(c: char) {
    || c == ' ' || c == '\t' || c == '\n' || c == '\r'
    || c == '\U{000B}' || c == '\U{000C}' || c == '\U{00A0}' || c == '\U{1680}'
    || ('\U{2000}' <= c <= '\U{200A}')
    || c == '\U{2028}' || c == '\U{2029}' || c == '\U{202F}' || c == '\U{205F}'
    || c == '\U{3000}' || c == '\U{FEFF}'
  }

  /** Every character is whitespace; `s.trim()` is then "" and so falsy. */
  predicate IsBlank(s: string) {
    forall i :: 0 <= i < |s| ==> IsWhitespace(s[i])
  }

  /** The characters of `s` that are not whitespace, in order. */
  function NonBlank(s: string): string {
    if s == [] then []
    else (if IsWhitespace(s[0]) then [] else [s[0]]) + NonBlank(s[1..])
  }

  /** The length of the leading whitespace run (the `\s*` at the start of `s`). */
  function WhitespaceRun(s: string): (k: nat)
    ensures k <= |s|
  {
    if s != [] && IsWhitespace(s[0]) then 1 + WhitespaceRun(s[1..]) else 0
  }

  /** The run is all whitespace and stops at the first other character. */
  lemma {:induction false} WhitespaceRunIsMaximal(s: string)
    ensures var k := WhitespaceRun(s); IsBlank(s[..k]) && (k < |s| ==> !IsWhitespace(s[k]))
    decreases |s|
  {
    if s != [] && IsWhitespace(s[0]) {
      WhitespaceRunIsMaximal(s[1..]);
      var k := WhitespaceRun(s);
      assert s[..k] == [s[0]] + s[1..][..k - 1];
    }
  }

  /** `s.trimStart()`: the suffix left after dropping the leading whitespace run. */
  function TrimStart(s: string): (r: string)
    ensures |r| <= |s| && r == s[|s| - |r|..]
    ensures IsBlank(s[..|s| - |r|])
    ensures r != [] ==> !IsWhitespace(r[0])
  {
    WhitespaceRunIsMaximal(s);
    s[WhitespaceRun(s)..]
  }

  /** The length of the trailing whitespace run (the `\s*` at the end of `s`). */
  function TrailingWhitespaceRun(s: string): (k: nat)
    ensures k <= |s|
  {
    if s != [] && IsWhitespace(s[|s| - 1]) then 1 + TrailingWhitespaceRun(s[..|s| - 1]) else 0
  }

  /** The trailing run is all whitespace and stops at the last other character. */
  lemma {:induction false} TrailingWhitespaceRunIsMaximal(s: string)
    ensures var k := TrailingWhitespaceRun(s); IsBlank(s[|s| - k..]) && (k < |s| ==> !IsWhitespace(s[|s| - k - 1]))
    decreases |s|
  {
    if s != [] && IsWhitespace(s[|s| - 1]) {
      var init := s[..|s| - 1];
      TrailingWhitespaceRunIsMaximal(init);
      var k' := TrailingWhitespaceRun(init);
      var k := TrailingWhitespaceRun(s);
      assert k == k' + 1;
      var run := s[|s| - k..];
      forall j | 0 <= j < |run|
        ensures IsWhitespace(run[j])
      {
        if j < k' {
          assert run[j] == init[|init| - k'..][j];
        }
      }
      if k < |s| {
        assert s[|s| - k - 1] == init[|init| - k' - 1];
      }
    }
  }

  /** A blank prefix followed by a non-whitespace character is exactly the whitespace run. */
  lemma {:induction false} WhitespaceRunOfBlank(ws: string, rest: string)
    requires IsBlank(ws) && rest != [] && !IsWhitespace(rest[0])
    ensures WhitespaceRun(ws + rest) == |ws|
    decreases |ws|
  {
    if ws == [] {
      assert ws + rest == rest;
    } else {
      assert (ws + rest)[1..] == ws[1..] + rest;
      WhitespaceRunOfBlank(ws[1..], rest);
    }
  }

  /** Text after a string that is not blank does not change where its whitespace run ends. */
  lemma {:induction false} WhitespaceRunAppend(x: string, y: string)
    requires !IsBlank(x)
    ensures WhitespaceRun(x + y) == WhitespaceRun(x)
    decreases |x|
  {
    assert (x + y)[0] == x[0];
    if IsWhitespace(x[0]) {
      assert (x + y)[1..] == x[1..] + y;
      WhitespaceRunAppend(x[1..], y);
    }
  }

  /** Trimming the start of `x + y` only reaches into `x` when `x` is not blank. */
  lemma TrimStartAppend(x: string, y: string)
    requires !IsBlank(x)
    ensures TrimStart(x + y) == TrimStart(x) + y
  {
    WhitespaceRunAppend(x, y);
    var k := WhitespaceRun(x);
    assert (x + y)[k..] == x[k..] + y;
  }

  /** A blank prefix is dropped whole when the rest starts with a non-whitespace character. */
  lemma TrimStartOfBlankPrefix(ws: string, rest: string)
    requires IsBlank(ws) && rest != [] && !IsWhitespace(rest[0])
    ensures TrimStart(ws + rest) == rest
  {
    WhitespaceRunOfBlank(ws, rest);
    assert (ws + rest)[|ws|..] == rest;
  }

  /** A blank string has nothing left after its start is trimmed. */
  lemma TrimStartOfBlank(ws: string)
    requires IsBlank(ws)
    ensures TrimStart(ws) == []
  {
  }

  /** `s.trimEnd()`: the prefix left after dropping the trailing whitespace run. */
  function TrimEnd(s: string): (r: string)
    ensures |r| <= |s| && r == s[..|r|]
    ensures IsBlank(s[|r|..])
    ensures r != [] ==> !IsWhitespace(r[|r| - 1])
  {
    TrailingWhitespaceRunIsMaximal(s);
    s[..|s| - TrailingWhitespaceRun(s)]
  }

  /** `s.trim()`: leading whitespace is skipped, then the trailing run is dropped. */
  function Trim(s: string): (r: string)
    ensures |r| <= |s|
    ensures r == [] <==> IsBlank(s)
    ensures IsTrimmed(r)
    decreases |s|
  {
    if s != [] && IsWhitespace(s[0]) then
      var r := Trim(s[1..]);
      assert IsBlank(s) <==> IsBlank(s[1..]) by {
        assert forall i :: 1 <= i < |s| ==> s[i] == s[1..][i - 1];
      }
      r
    else
      var r := TrimEnd(s);
      assert r != [] ==> r[0] == s[0];
      r
  }

  /** `s.trim()` is `s.trimStart().trimEnd()`. */
  lemma {:induction false} TrimIsBothEnds(s: string)
    ensures Trim(s) == TrimEnd(TrimStart(s))
    decreases |s|
  {
    if s != [] && IsWhitespace(s[0]) {
      TrimIsBothEnds(s[1..]);
      assert WhitespaceRun(s) == 1 + WhitespaceRun(s[1..]);
      assert TrimStart(s) == TrimStart(s[1..]);
    } else {
      assert WhitespaceRun(s) == 0;
      assert TrimStart(s) == s;
    }
  }

  /** No whitespace at either end: what `trim()` returns. */
  predicate IsTrimmed(s: string) {
    s == [] || (!IsWhitespace(s[0]) && !IsWhitespace(s[|s| - 1]))
  }

  /** A string without whitespace at either end is its own trim. */
  lemma TrimmedIsFixpoint(s: string)
    requires IsTrimmed(s)
    ensures Trim(s) == s
  {
  }

  /** Trimming twice is trimming once. */
  lemma TrimIdempotent(s: string)
    ensures Trim(Trim(s)) == Trim(s)
  {
    TrimmedIsFixpoint(Trim(s));
  }

  lemma {:induction false} NonBlankAppend(a: string, b: string)
    ensures NonBlank(a + b) == NonBlank(a) + NonBlank(b)
    decreases |a|
  {
    if a != [] {
      assert (a + b)[0] == a[0];
      assert (a + b)[1..] == a[1..] + b;
      NonBlankAppend(a[1..], b);
      var h := if IsWhitespace(a[0]) then [] else [a[0]];
      calc {
        NonBlank(a + b);
        h + NonBlank(a[1..] + b);
        h + (NonBlank(a[1..]) + NonBlank(b));
        (h + NonBlank(a[1..])) + NonBlank(b);
        NonBlank(a) + NonBlank(b);
      }
    } else {
      assert a + b == b;
    }
  }

  lemma {:induction false} NonBlankOfBlank(s: string)
    requires IsBlank(s)
    ensures NonBlank(s) == []
    decreases |s|
  {
    if s != [] {
      NonBlankOfBlank(s[1..]);
    }
  }

  /** A string is blank exactly when it has no non-whitespace character. */
  lemma {:induction false} BlankIffNoNonBlank(s: string)
    ensures IsBlank(s) <==> NonBlank(s) == []
    decreases |s|
  {
    if s != [] {
      BlankIffNoNonBlank(s[1..]);
      if IsBlank(s[1..]) && IsWhitespace(s[0]) {
        assert IsBlank(s);
      }
    }
  }

  /** Dropping leading whitespace keeps the non-whitespace characters. */
  lemma NonBlankTrimStart(s: string)
    ensures NonBlank(TrimStart(s)) == NonBlank(s)
  {
    var t := TrimStart(s);
    var k := |s| - |t|;
    assert s == s[..k] + t;
    NonBlankAppend(s[..k], t);
    NonBlankOfBlank(s[..k]);
  }

  /** Dropping trailing whitespace keeps the non-whitespace characters. */
  lemma NonBlankTrimEnd(s: string)
    ensures NonBlank(TrimEnd(s)) == NonBlank(s)
  {
    var t := TrimEnd(s);
    assert s == t + s[|t|..];
    NonBlankAppend(t, s[|t|..]);
    NonBlankOfBlank(s[|t|..]);
  }

  /** Trimming keeps the non-whitespace characters. */
  lemma NonBlankTrim(s: string)
    ensures NonBlank(Trim(s)) == NonBlank(s)
  {
    TrimIsBothEnds(s);
    NonBlankTrimStart(s);
    NonBlankTrimEnd(TrimStart(s));
  }

  /** `s.trim()` is the slice of `s` that starts after the leading whitespace. */
  lemma TrimIsSlice(s: string)
    ensures var k := |s| - |TrimStart(s)|; k + |Trim(s)| <= |s| && Trim(s) == s[k..k + |Trim(s)|]
  {
    TrimIsBothEnds(s);
    var t := TrimStart(s);
    var k := |s| - |t|;
    var r := TrimEnd(t);
    assert r == t[..|r|];
    assert t == s[k..];
  }

  /** Trimming introduces no character that was not there. */
  lemma TrimKeepsAbsentChar(s: string, c: char)
    requires c !in s
    ensures c !in Trim(s)
  {
    TrimIsSlice(s);
    var k := |s| - |TrimStart(s)|;
    var r := Trim(s);
    assert forall i :: 0 <= i < |r| ==> r[i] == s[k + i];
  }

  /** The non-whitespace characters of a prefix are a prefix of the non-whitespace characters. */
  lemma NonBlankPrefix(s: string, k: nat)
    requires k <= |s|
    ensures NonBlank(s[..k]) <= NonBlank(s)
  {
    assert s == s[..k] + s[k..];
    NonBlankAppend(s[..k], s[k..]);
  }

  /** The only whitespace is single spaces, and no two whitespace characters are adjacent. */
  predicate SingleSpaced(s: string) {
    && (forall i :: 0 <= i < |s| && IsWhitespace(s[i]) ==> s[i] == ' ')
    && (forall i, j :: 0 <= i < |s| && 0 <= j < |s| && j == i + 1 ==> !IsWhitespace(s[i]) || !IsWhitespace(s[j]))
  }

  /** Every slice of a single-spaced string is single-spaced. */
  lemma SingleSpacedSlice(s: string, i: nat, t: string)
    requires SingleSpaced(s) && i + |t| <= |s| && t == s[i..i + |t|]
    ensures SingleSpaced(t)
  {
    assert forall k :: 0 <= k < |t| ==> t[k] == s[i + k];
  }

  /** A prefix of a single-spaced string is single-spaced and keeps a prefix of its text. */
  lemma PrefixKeepsShape(s: string, p: string)
    requires SingleSpaced(s) && p <= s
    ensures SingleSpaced(p) && NonBlank(p) <= NonBlank(s)
  {
    assert p == s[..|p|];
    SingleSpacedSlice(s, 0, p);
    NonBlankPrefix(s, |p|);
  }

  /** Trimming a single-spaced string leaves it single-spaced. */
  lemma SingleSpacedTrim(s: string)
    requires SingleSpaced(s)
    ensures SingleSpaced(Trim(s))
  {
    TrimIsSlice(s);
    SingleSpacedSlice(s, |s| - |TrimStart(s)|, Trim(s));
  }

  /**
    `s.replace(/\s+/g, " ")`: every maximal whitespace run becomes one space. The
    non-whitespace characters survive in order, the only whitespace left is single
    spaces, and no two of those are adjacent.
  */
  function CollapseWhitespace(s: string): (r: string)
    ensures r == [] <==> s == []
    ensures |r| <= |s|
    ensures s != [] ==> (IsWhitespace(r[0]) <==> IsWhitespace(s[0]))
    decreases |s|
  {
    if s == [] then []
    else if IsWhitespace(s[0]) then " " + CollapseWhitespace(TrimStart(s))
    else [s[0]] + CollapseWhitespace(s[1..])
  }

  /** A non-empty whitespace run collapses to one space. */
  lemma CollapseOfBlank(ws: string)
    requires ws != [] && IsBlank(ws)
    ensures CollapseWhitespace(ws) == " "
  {
    TrimStartOfBlank(ws);
  }

  /** A single non-whitespace character is kept as it is. */
  lemma CollapseOfWordChar(c: char)
    requires !IsWhitespace(c)
    ensures CollapseWhitespace([c]) == [c]
  {
    assert [c][1..] == [];
  }

  /**
    Collapsing works piece by piece when the cut does not fall inside a whitespace run.
    Together with `CollapseOfBlank` and `CollapseOfWordChar` this determines the result
    for every string: cut it into its maximal runs, each whitespace run becomes " " and
    every other character stays.
  */
  lemma {:induction false} CollapseAppend(x: string, y: string)
    requires x == [] || y == [] || !IsWhitespace(x[|x| - 1]) || !IsWhitespace(y[0])
    ensures CollapseWhitespace(x + y) == CollapseWhitespace(x) + CollapseWhitespace(y)
    decreases |x|
  {
    if x == [] {
      assert x + y == y;
    } else if y == [] {
      assert x + y == x;
    } else if !IsWhitespace(x[0]) {
      assert (x + y)[0] == x[0];
      assert (x + y)[1..] == x[1..] + y;
      CollapseAppend(x[1..], y);
    } else if IsBlank(x) {
      assert (x + y)[0] == x[0];
      TrimStartOfBlankPrefix(x, y);
      CollapseOfBlank(x);
    } else {
      assert (x + y)[0] == x[0];
      var r := TrimStart(x);
      TrimStartAppend(x, y);
      assert r[0] == x[|x| - |r|];
      assert r[|r| - 1] == x[|x| - 1];
      CollapseAppend(r, y);
    }
  }

  /** A whitespace run between two words becomes exactly one space; the words are collapsed on their own. */
  lemma WordsStaySeparated(a: string, ws: string, b: string)
    requires a != [] && !IsWhitespace(a[|a| - 1])
    requires ws != [] && IsBlank(ws)
    requires b == [] || !IsWhitespace(b[0])
    ensures CollapseWhitespace(a + ws + b) == CollapseWhitespace(a) + " " + CollapseWhitespace(b)
  {
    assert a + ws + b == a + (ws + b);
    assert (ws + b)[0] == ws[0];
    CollapseAppend(a, ws + b);
    CollapseAppend(ws, b);
    CollapseOfBlank(ws);
  }

  /** Collapsing a string that ends in a non-whitespace character ends in that character. */
  lemma CollapseKeepsLastWordChar(s: string)
    requires s != [] && !IsWhitespace(s[|s| - 1])
    ensures var r := CollapseWhitespace(s); r != [] && r[|r| - 1] == s[|s| - 1]
  {
    var init := s[..|s| - 1];
    assert s == init + [s[|s| - 1]];
    CollapseAppend(init, [s[|s| - 1]]);
    CollapseOfWordChar(s[|s| - 1]);
  }

  /** Collapsing keeps the non-whitespace characters, in order. */
  lemma {:induction false} CollapseKeepsText(s: string)
    ensures NonBlank(CollapseWhitespace(s)) == NonBlank(s)
    decreases |s|
  {
    if s != [] {
      if IsWhitespace(s[0]) {
        var rest := TrimStart(s);
        CollapseKeepsText(rest);
        NonBlankTrimStart(s);
        NonBlankAppend(" ", CollapseWhitespace(rest));
      } else {
        CollapseKeepsText(s[1..]);
        NonBlankAppend([s[0]], CollapseWhitespace(s[1..]));
        NonBlankAppend([s[0]], s[1..]);
        assert s == [s[0]] + s[1..];
      }
    }
  }

  /** Collapsing leaves only single spaces, never two whitespace characters in a row. */
  lemma {:induction false} CollapseIsSingleSpaced(s: string)
    ensures SingleSpaced(CollapseWhitespace(s))
    decreases |s|
  {
    if s != [] {
      var r := CollapseWhitespace(s);
      if IsWhitespace(s[0]) {
        var rest := TrimStart(s);
        CollapseIsSingleSpaced(rest);
        var tail := CollapseWhitespace(rest);
        assert r == " " + tail;
        assert forall i :: 1 <= i < |r| ==> r[i] == tail[i - 1];
      } else {
        CollapseIsSingleSpaced(s[1..]);
        var tail := CollapseWhitespace(s[1..]);
        assert r == [s[0]] + tail;
        assert forall i :: 1 <= i < |r| ==> r[i] == tail[i - 1];
      }
    }
  }

  /** `s.replace(/\/+$/, "")`: exactly the trailing run of '/' is removed. */
  function StripTrailingSlashes(s: string): (r: string)
    ensures |r| <= |s| && r == s[..|r|]
    ensures forall i :: |r| <= i < |s| ==> s[i] == '/'
    ensures r == [] || r[|r| - 1] != '/'
  {
    if s != [] && s[|s| - 1] == '/' then StripTrailingSlashes(s[..|s| - 1]) else s
  }

  /** Stripping the trailing slashes a second time changes nothing. */
  lemma StripTrailingSlashesIdempotent(s: string)
    ensures StripTrailingSlashes(StripTrailingSlashes(s)) == StripTrailingSlashes(s)
  {
  }

  /** A concatenation is blank exactly when both halves are. */
  lemma BlankConcat(a: string, b: string)
    ensures IsBlank(a + b) <==> IsBlank(a) && IsBlank(b)
  {
    if IsBlank(a + b) {
      assert forall i :: 0 <= i < |a| ==> a[i] == (a + b)[i];
      assert forall i :: 0 <= i < |b| ==> b[i] == (a + b)[|a| + i];
    }
  }

  /** `parts.join(sep)`. */
  function Join(parts: seq<string>, sep: string): string {
    if parts == [] then ""
    else if |parts| == 1 then parts[0]
    else parts[0] + sep + Join(parts[1..], sep)
  }

  /** `s.split(sep)` for a one-character separator: the pieces between separators. */
  function Split(s: string, sep: char): (parts: seq<string>)
    ensures |parts| >= 1
    ensures forall i :: 0 <= i < |parts| ==> sep !in parts[i]
    ensures Join(parts, [sep]) == s
    decreases |s|
  {
    if s == [] then [""]
    else
      var rest := Split(s[1..], sep);
      if s[0] == sep then
        assert s == [sep] + s[1..];
        [""] + rest
      else
        var parts := [[s[0]] + rest[0]] + rest[1..];
        assert Join(parts, [sep]) == s by {
          if |rest| == 1 {
            assert s == [s[0]] + rest[0];
          } else {
            assert parts[1..] == rest[1..];
            assert Join(rest, [sep]) == rest[0] + [sep] + Join(rest[1..], [sep]);
            assert s == [s[0]] + s[1..];
          }
        }
        parts
  }

  /** Joining with a blank separator gives a blank string exactly when every part is blank. */
  lemma {:induction false} BlankJoin(parts: seq<string>, sep: string)
    requires IsBlank(sep)
    ensures IsBlank(Join(parts, sep)) <==> forall i :: 0 <= i < |parts| ==> IsBlank(parts[i])
  {
    if |parts| > 1 {
      BlankJoin(parts[1..], sep);
      BlankConcat(parts[0], sep);
      BlankConcat(parts[0] + sep, Join(parts[1..], sep));
      assert forall i :: 1 <= i < |parts| ==> parts[i] == parts[1..][i - 1];
    }
  }
}

=== FILE: types.dfy ===
/** The records shared by the provider layer: identifiers, credentials, retry policy and request parameters. */
module Types {
  import opened Wrappers
  import opened JsValue

  /** The closed set of providers. */
  datatype ProviderId = OpenAI | Anthropic | Gemini | DeepSeek | Zhipu | Custom

  /** The identifier as it appears in configuration and in error messages. */
  function IdText(id: ProviderId): (s: string)
    ensures s != []
  {
    match id
    case OpenAI => "openai"
    case Anthropic => "anthropic"
    case Gemini => "gemini"
    case DeepSeek => "deepseek"
    case Zhipu => "zhipu"
    case Custom => "custom"
  }

  /**
    Per-provider connection settings. `apiKey` is always present; every other field
    may be absent, and an absent field is what an object spread leaves untouched.
  */
  datatype ProviderCredential = ProviderCredential(
    apiKey: string,
    baseUrl: Option<string>,
    model: Option<string>,
    organization: Option<string>,
    extraHeaders: Option<map<string, string>>,
    customParams: Option<map<string, Json>>,
    preferNonReasoningModel: Option<bool>)

  /** Bounded retry with optional exponential backoff; `timeoutMs` caps each single wait. */
  datatype RetryPolicyConfig = RetryPolicyConfig(
    maxAttempts: int,
    baseDelayMs: int,
    exponential: bool,
    timeoutMs: int)

  /**
    What every adapter receives for one title request. Temperature, top-p and the token
    budget are passed through untouched; the abort signal is part of the transport.
  */
  datatype GenerateTitleParams = GenerateTitleParams(
    prompt: string,
    systemPrompt: string,
    temperature: real,
    topP: real,
    maxTokens: real,
    disableThinking: Option<bool>)

  /** Static description of one provider (`displayName` is the source's `label`). */
  datatype ProviderMeta = ProviderMeta(
    id: ProviderId,
    displayName: string,
    description: string,
    defaultBaseUrl: string,
    defaultModel: string,
    requiresApiKey: bool,
    supportsCustomBaseUrl: bool)
}

=== FILE: wrappers.dfy ===
/** Option and Result, the failure-compatible wrappers used across the model. */
module Wrappers {

  /** A JavaScript value that may be `undefined` is an `Option`: `None` is `undefined`. */
  datatype Option<+T> = None | Some(value: T) {

    predicate IsFailure() {
      None?
    }

    function PropagateFailure<U>(): Option<U>
      requires None?
    {
      None
    }

    function Extract(): T
      requires Some?
    {
      value
    }

    /** `this ?? default` for a value that cannot be `null`. */
    function GetOr(default: T): T {
      match this
      case Some(v) => v
      case None => default
    }
  }

  /** A computation that either returns a value or throws an error. */
  datatype Result<+T, +E> = Ok(value: T) | Err(error: E) {

    predicate IsFailure() {
      Err?
    }

    function PropagateFailure<U>(): Result<U, E>
      requires Err?
    {
      Err(error)
    }

    function Extract(): T
      requires Ok?
    {
      value
    }
  }
}

=== FILE: zhipu_provider.dfy ===
/**
  `ZhipuProvider`: the adapter for Zhipu GLM's chat-completions API, whose reasoning
  models may answer in `reasoning_content` instead of `content`.
*/
module ZhipuProvider {
  import opened Wrappers
  import opened Text
  import opened JsValue
  import opened Types
  import opened LLMProvider
  import opened ProviderHttp

  /** The lines of `lines` whose trim is non-empty, in order (`lines.filter(l => l.trim())`). */
  function KeepNonBlank(lines: seq<string>): (kept: seq<string>)
    ensures |kept| <= |lines|
    ensures forall i :: 0 <= i < |kept| ==> !IsBlank(kept[i]) && kept[i] in lines
    ensures kept == [] <==> forall i :: 0 <= i < |lines| ==> IsBlank(lines[i])
  {
    if lines == [] then []
    else
      var init := lines[..|lines| - 1];
      var last := lines[|lines| - 1];
      var front := KeepNonBlank(init);
      assert forall i :: 0 <= i < |init| ==> init[i] == lines[i];
      if IsBlank(last) then front else front + [last]
  }

  /** A single line is kept exactly when its trim is non-empty. */
  lemma KeepNonBlankOne(line: string)
    ensures KeepNonBlank([line]) == (if IsBlank(line) then [] else [line])
  {
    assert [line][..0] == [];
  }

  /** The filter works line by line: the kept lines of `a + b` are those of `a`, then those of `b`. */
  lemma {:induction false} KeepNonBlankAppend(a: seq<string>, b: seq<string>)
    ensures KeepNonBlank(a + b) == KeepNonBlank(a) + KeepNonBlank(b)
    decreases |b|
  {
    if b == [] {
      assert a + b == a;
    } else {
      var ab := a + b;
      assert ab[..|ab| - 1] == a + b[..|b| - 1];
      assert ab[|ab| - 1] == b[|b| - 1];
      KeepNonBlankAppend(a, b[..|b| - 1]);
    }
  }

  /** The position of the last line whose trim is non-empty, if any. */
  function LastNonBlank(lines: seq<string>): (r: Option<nat>)
    ensures r.Some? ==> r.value < |lines| && !IsBlank(lines[r.value])
    ensures r.Some? ==> forall j :: r.value < j < |lines| ==> IsBlank(lines[j])
    ensures r.None? ==> forall j :: 0 <= j < |lines| ==> IsBlank(lines[j])
  {
    if lines == [] then None
    else if !IsBlank(lines[|lines| - 1]) then Some(|lines| - 1)
    else
      var init := lines[..|lines| - 1];
      assert forall i :: 0 <= i < |init| ==> init[i] == lines[i];
      LastNonBlank(init)
  }

  /** The last line the filter keeps is the last non-blank line. */
  lemma {:induction false} KeepNonBlankLast(lines: seq<string>)
    requires KeepNonBlank(lines) != []
    ensures LastNonBlank(lines).Some?
    ensures KeepNonBlank(lines)[|KeepNonBlank(lines)| - 1] == lines[LastNonBlank(lines).value]
  {
    var init := lines[..|lines| - 1];
    if IsBlank(lines[|lines| - 1]) {
      assert forall i :: 0 <= i < |init| ==> init[i] == lines[i];
      KeepNonBlankLast(init);
    }
  }

  /** The characters the list-marker pattern `[#*\-\d.]` matches (ASCII digits only). */
  predicate IsMarker(c: char) {
    c == '#' || c == '*' || c == '-' || c == '.' || ('0' <= c <= '9')
  }

  /** The length of the leading run of marker characters. */
  function MarkerRun(s: string): (k: nat)
    ensures k <= |s|
    ensures forall i :: 0 <= i < k ==> IsMarker(s[i])
    ensures k < |s| ==> !IsMarker(s[k])
  {
    if s != [] && IsMarker(s[0]) then 1 + MarkerRun(s[1..]) else 0
  }

  /**
    `s.replace(/^[#*\-\d.]+\s*\/, "")`: a leading run of marker characters and the
    whitespace after it are removed; a string not starting with a marker is unchanged.
  */
  function StripListMarker(s: string): (r: string)
    ensures |r| <= |s| && r == s[|s| - |r|..]
    ensures s == [] || !IsMarker(s[0]) ==> r == s
    ensures s != [] && IsMarker(s[0]) ==>
              var k := MarkerRun(s);
              && 0 < k <= |s| - |r|
              && IsBlank(s[k..|s| - |r|])
              && (r == [] || !IsWhitespace(r[0]))
  {
    var k := MarkerRun(s);
    if k == 0 then s
    else
      var r := TrimStart(s[k..]);
      assert s[k..][..|s[k..]| - |r|] == s[k..|s| - |r|];
      r
  }

  /**
    The title recovered from reasoning text: the last line whose trim is non-empty,
    trimmed, stripped of a list marker and trimmed again. Nothing when no line remains.
  */
  function ReasoningTitle(reasoning: string): (r: Option<string>)
    ensures r.None? <==> IsBlank(reasoning)
    ensures r.Some? ==> '\n' !in r.value && IsTrimmed(r.value)
    ensures r.Some? ==>
              var lines := Split(reasoning, '\n');
              && LastNonBlank(lines).Some?
              && r.value == Trim(StripListMarker(Trim(lines[LastNonBlank(lines).value])))
  {
    var lines := Split(reasoning, '\n');
    var kept := KeepNonBlank(lines);
    BlankJoin(lines, "\n");
    if kept == [] then None
    else
      KeepNonBlankLast(lines);
      var line := kept[|kept| - 1];
      assert line == lines[LastNonBlank(lines).value];
      LineTitleIsOneLine(line);
      Some(Trim(StripListMarker(Trim(line))))
  }

  /** The title made from one line is still one line, with no surrounding whitespace. */
  lemma LineTitleIsOneLine(line: string)
    requires '\n' !in line
    ensures var title := Trim(StripListMarker(Trim(line))); '\n' !in title && IsTrimmed(title)
  {
    TrimKeepsAbsentChar(line, '\n');
    var stripped := StripListMarker(Trim(line));
    assert stripped == Trim(line)[|Trim(line)| - |stripped|..];
    TrimKeepsAbsentChar(stripped, '\n');
  }

  /** `reasoning_content` of a choice. */
  function Reasoning(choice: Option<Json>): Option<Json> {
    Get(Get(choice, "message"), "reasoning_content")
  }

  /**
    The content candidate of a response, when `choices` is a non-empty array: a truthy
    `message.content`; else the title recovered from a truthy `message.reasoning_content`
    (`split` throws a `TypeError` when that is not a string); else a truthy `text`; else
    a truthy `delta.content`.
  */
  function ExtractContent(body: Json): (r: Result<Option<Json>, Fault>)
    ensures var choices := Get(Some(body), "choices");
            !(IsArray(choices) && choices.value.items != []) ==> r == Ok(None)
    ensures var choices := Get(Some(body), "choices");
            IsArray(choices) && choices.value.items != [] ==>
              var choice := Some(choices.value.items[0]);
              var content := Get(Get(choice, "message"), "content");
              var reasoning := Reasoning(choice);
              && (Truthy(content) ==> r == Ok(content))
              && (!Truthy(content) && Truthy(reasoning) && reasoning.value.JStr? ==>
                    r == Ok(if ReasoningTitle(reasoning.value.s).Some? then Some(JStr(ReasoningTitle(reasoning.value.s).value)) else None))
              && (!Truthy(content) && Truthy(reasoning) && !reasoning.value.JStr? ==>
                    r.Err? && r.error.ErrorFault? && r.error.name == "TypeError")
              && (!Truthy(content) && !Truthy(reasoning) ==>
                    r == Ok(FirstTruthy([Get(choice, "text"), Get(Get(choice, "delta"), "content")])))
  {
    var choices := Get(Some(body), "choices");
    if IsArray(choices) && choices.value.items != [] then
      var choice := Some(choices.value.items[0]);
      var text := Get(choice, "text");
      var delta := Get(Get(choice, "delta"), "content");
      assert [text, delta][1..] == [delta];
      assert [text, delta][1..][1..] == [];
      if Truthy(Get(Get(choice, "message"), "content")) then Ok(Get(Get(choice, "message"), "content"))
      else if Truthy(Reasoning(choice)) then
        var reasoning := Reasoning(choice).value;
        if !reasoning.JStr? then Err(ErrorFault("TypeError", "split is not a function"))
        else if ReasoningTitle(reasoning.s).Some? then Ok(Some(JStr(ReasoningTitle(reasoning.s).value)))
        else Ok(None)
      else if Truthy(text) then Ok(text)
      else if Truthy(delta) then Ok(delta)
      else Ok(None)
    else Ok(None)
  }

  /** The truncation message: reasoning was cut off; raise max_tokens (128 or more suggested). */
  const TruncationMessage: string := "模型推理内容被截断，请在设置中增加 max_tokens 值（建议 128 或更高）"

  /** The non-retryable error for reasoning cut off by the token budget. */
  function TruncationError(): (e: ProviderError)
    ensures e.message == TruncationMessage && !e.retryable && e.providerId == Some(Zhipu) && e.status == None
  {
    NewProviderError(TruncationMessage, ErrorOptions(None, Some(Zhipu), Some(false)))
  }

  /**
    The body shows a truncated reasoning answer: `choices?.[0]` (looked up without the
    array test) finished for `"length"` and carries a truthy `reasoning_content`.
  */
  predicate Truncated(data: Json) {
    var choice := First(Get(Some(data), "choices"));
    Get(choice, "finish_reason") == Some(JStr("length")) && Truthy(Reasoning(choice))
  }

  /**
    The response half of `generateTitle`: a non-OK status is an error carrying the
    status, retryable exactly for 5xx and 429. On success a string candidate is trimmed
    and returned when non-empty; a non-string candidate makes `trim` throw. When nothing
    usable is left, a truncated reasoning answer is a non-retryable error and anything
    else is the retryable empty-payload error embedding the body.
  */
  function Interpret(rt: Runtime, resp: Response): (r: Result<string, Fault>)
    ensures !resp.ok ==> r == Err(ProviderFault(StatusError(rt, Zhipu, resp, IsRetryableStatus(resp.status))))
    ensures resp.ok ==> (r.Ok? <==> var c := ExtractContent(Data(resp));
                                   c.Ok? && c.value.Some? && c.value.value.JStr? && !IsBlank(c.value.value.s))
    ensures r.Ok? ==> && r.value != [] && IsTrimmed(r.value)
                      && r.value == Trim(ExtractContent(Data(resp)).value.value.s)
    ensures resp.ok && r.Err? && r.error.ProviderFault? ==>
              if Truncated(Data(resp)) then r.error.error == TruncationError()
              else r.error.error == EmptyPayloadError(rt, Zhipu, Data(resp))
    ensures resp.ok && r.Err? && !r.error.ProviderFault? ==> r.error.name == "TypeError"
  {
    if !resp.ok then Err(ProviderFault(StatusError(rt, Zhipu, resp, IsRetryableStatus(resp.status))))
    else
      var extracted := ExtractContent(Data(resp));
      if extracted.Err? then Err(extracted.error)
      else Conclude(rt, Data(resp), extracted.value)
  }

  /**
    What an OK response comes to once its candidate is known: a string candidate is
    trimmed and returned when non-empty, a non-string one makes `trim` throw, and an
    empty result is the truncation error or the empty-payload error.
  */
  function Conclude(rt: Runtime, data: Json, content: Option<Json>): (r: Result<string, Fault>)
    ensures r.Ok? <==> content.Some? && content.value.JStr? && !IsBlank(content.value.s)
    ensures r.Ok? ==> r.value == Trim(content.value.s) && r.value != [] && IsTrimmed(r.value)
    ensures r.Err? && r.error.ProviderFault? ==>
              if Truncated(data) then r.error.error == TruncationError()
              else r.error.error == EmptyPayloadError(rt, Zhipu, data)
    ensures r.Err? && !r.error.ProviderFault? ==> r.error.name == "TypeError"
  {
    match TrimValue(content)
    case Err(f) => Err(f)
    case Ok(trimmed) =>
      if trimmed.Some? && trimmed.value != "" then
        Ok(trimmed.value)
      else if Truncated(data) then Err(ProviderFault(TruncationError()))
      else Err(ProviderFault(EmptyPayloadError(rt, Zhipu, data)))
  }

  /** `choices` is a non-empty array whose first element is `choice`. */
  predicate FirstChoiceIs(body: Json, choice: Json) {
    var choices := Get(Some(body), "choices");
    IsArray(choices) && choices.value.items != [] && choices.value.items[0] == choice
  }

  /** With a falsy `content`, a string `reasoning_content` supplies the candidate. */
  lemma ReasoningIsTheCandidate(body: Json, choice: Json, reasoning: string)
    requires FirstChoiceIs(body, choice)
    requires !Truthy(Get(Get(Some(choice), "message"), "content"))
    requires Reasoning(Some(choice)) == Some(JStr(reasoning)) && reasoning != []
    ensures ExtractContent(body) ==
              Ok(if ReasoningTitle(reasoning).Some? then Some(JStr(ReasoningTitle(reasoning).value)) else None)
  {
  }

  /** A candidate that is a non-empty trimmed string is the answer as it is. */
  lemma TrimmedCandidateIsReturned(rt: Runtime, resp: Response, title: string)
    requires resp.ok && ExtractContent(Data(resp)) == Ok(Some(JStr(title)))
    requires title != "" && IsTrimmed(title)
    ensures Interpret(rt, resp) == Ok(title)
  {
    TrimmedIsFixpoint(title);
  }

  /** With a falsy `content`, a usable line of a string `reasoning_content` is the answer. */
  lemma ReasoningTitleIsReturned(rt: Runtime, resp: Response, choice: Json, reasoning: string)
    requires resp.ok && FirstChoiceIs(Data(resp), choice)
    requires !Truthy(Get(Get(Some(choice), "message"), "content"))
    requires Reasoning(Some(choice)) == Some(JStr(reasoning))
    ensures var title := ReasoningTitle(reasoning);
            title.Some? && title.value != "" ==> Interpret(rt, resp) == Ok(title.value)
  {
    var title := ReasoningTitle(reasoning);
    if title.Some? && title.value != "" {
      assert reasoning != [];
      ReasoningIsTheCandidate(Data(resp), choice, reasoning);
      TrimmedCandidateIsReturned(rt, resp, title.value);
    }
  }

  /**
    A non-empty title recovered from the reasoning is returned even when the choice
    finished for `"length"`: the truncation error is only for an empty result.
  */
  lemma ReasoningTitleWinsOverTruncation(rt: Runtime, resp: Response, choice: Json, reasoning: string)
    requires resp.ok && FirstChoiceIs(Data(resp), choice)
    requires !Truthy(Get(Get(Some(choice), "message"), "content"))
    requires Reasoning(Some(choice)) == Some(JStr(reasoning)) && reasoning != []
    requires Get(Some(choice), "finish_reason") == Some(JStr("length"))
    ensures Truncated(Data(resp))
    ensures var title := ReasoningTitle(reasoning);
            title.Some? && title.value != "" ==> Interpret(rt, resp) == Ok(title.value)
  {
    assert First(Get(Some(Data(resp)), "choices")) == Some(choice);
    ReasoningTitleIsReturned(rt, resp, choice, reasoning);
  }

  /**
    Reasoning with no usable line in a choice that finished for `"length"` is reported
    as truncation, which is not retried.
  */
  lemma BlankReasoningAtLengthIsTruncation(rt: Runtime, resp: Response, choice: Json, reasoning: string)
    requires resp.ok && FirstChoiceIs(Data(resp), choice)
    requires !Truthy(Get(Get(Some(choice), "message"), "content"))
    requires Reasoning(Some(choice)) == Some(JStr(reasoning))
    requires Get(Some(choice), "finish_reason") == Some(JStr("length"))
    requires reasoning != [] && IsBlank(reasoning)
    ensures Interpret(rt, resp) == Err(ProviderFault(TruncationError()))
    ensures !TruncationError().retryable
  {
    assert First(Get(Some(Data(resp)), "choices")) == Some(choice);
    ReasoningIsTheCandidate(Data(resp), choice, reasoning);
  }

  /** `generateTitle`: a missing key fails before any request; otherwise one POST to `<base>/chat/completions`. */
  function GenerateTitle(rt: Runtime, cred: ProviderCredential, p: GenerateTitleParams, fetch: Transport): (call: Call<string>)
    ensures cred.apiKey == "" ==> call == Call([], Err(ProviderFault(MissingKeyError(Zhipu))))
    ensures cred.apiKey != "" ==>
              && |call.requests| == 1
              && call.requests[0].verb == "POST"
              && call.requests[0].url == StripTrailingSlashes(ChosenBaseUrl(Zhipu, cred)) + "/chat/completions"
              && call.requests[0].headers == BearerHeaders(AdapterConfig(Zhipu, cred))
              && call.requests[0].body == Some(JObj(ChatBody(AdapterConfig(Zhipu, cred), p)))
    ensures cred.apiKey != "" && fetch(call.requests[0]).Ok? ==>
              call.result == Interpret(rt, fetch(call.requests[0]).value)
    ensures cred.apiKey != "" && fetch(call.requests[0]).Err? ==>
              call.result == Err(Rejected(fetch(call.requests[0]).error))
  {
    var c := AdapterConfig(Zhipu, cred);
    var request := HttpRequest("POST", BaseUrl(c) + "/chat/completions", BearerHeaders(c), Some(JObj(ChatBody(c, p))));
    Exchange(Zhipu, c, request, fetch, (resp: Response) => Interpret(rt, resp))
  }

  /** `testConnection`: the model list, falling back to a one-token chat request only when it is 404. */
  function TestConnection(rt: Runtime, cred: ProviderCredential, fetch: Transport): (call: Call<()>)
    ensures cred.apiKey == "" ==> call == Call([], Err(ProviderFault(MissingKeyError(Zhipu))))
    ensures cred.apiKey != "" ==>
              && 1 <= |call.requests| <= 2
              && call.requests[0].verb == "GET"
              && call.requests[0].url == StripTrailingSlashes(ChosenBaseUrl(Zhipu, cred)) + "/models"
    ensures var models := ModelsRequest(AdapterConfig(Zhipu, cred));
            cred.apiKey != "" && fetch(models).Ok? && fetch(models).value.ok ==> call == Call([models], Ok(()))
    ensures var models := ModelsRequest(AdapterConfig(Zhipu, cred));
            cred.apiKey != "" && fetch(models).Ok? && !IsNotFound(fetch(models).value) ==>
              call == Call([models], FinalStatus(rt, Zhipu, fetch(models).value))
    ensures var models := ModelsRequest(AdapterConfig(Zhipu, cred));
            cred.apiKey != "" && fetch(models).Err? ==> call == Call([models], Err(Rejected(fetch(models).error)))
    ensures var c := AdapterConfig(Zhipu, cred);
            var models := ModelsRequest(c);
            var probe := ProbeRequest(c);
            cred.apiKey != "" && fetch(models).Ok? && IsNotFound(fetch(models).value) ==>
              && call.requests == [models, probe]
              && probe.verb == "POST"
              && probe.url == StripTrailingSlashes(ChosenBaseUrl(Zhipu, cred)) + "/chat/completions"
              && probe.body == Some(JObj(ProbeBody(c)))
              && (fetch(probe).Ok? ==> call.result == FinalStatus(rt, Zhipu, fetch(probe).value))
              && (fetch(probe).Err? ==> call.result == Err(Rejected(fetch(probe).error)))
    ensures |call.requests| == 2 ==>
              && fetch(call.requests[0]).Ok? && fetch(call.requests[0]).value.status == 404
              && call.requests[1].url == StripTrailingSlashes(ChosenBaseUrl(Zhipu, cred)) + "/chat/completions"
    ensures call.result.Err? && call.result.error.ProviderFault? && call.result.error.error.status.Some? ==>
              call.result.error.error.retryable == IsRetryableStatus(call.result.error.error.status.value)
  {
    ModelsThenChatProbe(rt, Zhipu, AdapterConfig(Zhipu, cred), fetch)
  }
}
